=== FILE: README.md ===
# omg core, modelled in Dafny

omg mirrors a user's GitHub data into a local SQLite database. It fetches
the user's repositories and starred repositories page by page from the REST
API, maps each JSON element to a repository or star record, and upserts them
into the tables `omg_repo`, `omg_my_repo` and `omg_my_star`. It also builds
the filtered SELECT used to read them back, and scrapes the trending page
with a regular expression. This project models the sequential logic of
`core/omg.c` around its four foreign libraries:

- libcurl is replaced by the exchange it reports: a transport error, or a
  status code with a decoded body.
- jansson is replaced by a JSON datatype (`JsonModel`) with jansson's
  null-safe accessors.
- SQLite is replaced by a per-statement oracle. It says whether preparing
  succeeds and which row steps succeed. The tables are maps and sets keyed
  by id.
- PCRE is replaced by a matcher oracle. It returns the three groups and
  where group 3 ends.

Modules, one file each:

- `OmgTypes`: records, error codes, `omg_new_repo`, `empty_string`.
- `JsonModel`: decoded JSON and jansson's accessors.
- `ResponseBuffer`: `mem_cb` and the transfer that drives it.
- `Mappers`: `dup_json_string`, `repo_from_json`, the star mapping,
  `integer_or_default`, the profile mapping.
- `Requests`: `omg_request`, the two page fetchers, the classification in
  `omg_whoami`.
- `UpsertStore`: `save_repos`, `save_my_repos`, `save_my_stars`,
  `omg_unstar`.
- `Pagination`: `omg_sync_repos`, `omg_sync_stars`.
- `QueryBuilder`: `prepare_query_sql`.
- `Trending`: `omg_parse_trending`.

The repository, star and profile mappings each have an encoder partner,
and the model proves the round trip between them; the profile's round trip
needs the three counts `integer_or_default` narrows to an `int` to fit in
one. `integer_or_default` itself is related to 32-bit narrowing instead. The upsert has a last-write-wins characterisation and
idempotence. Each query builder is related to a length formula and to the
corrected builder. The query builder measures text in characters, each
standing for one byte of the UTF-8 text, as `strlen` counts. The sync loop and the trending loop are recursive
functions with explicit measures, and lemmas say exactly where each loop
stops.

`omg_request` looks at the status code only for 204 and 304. Any other
status with a decodable body is a success, so a 403 carrying GitHub's error
object reaches the page fetcher as a document. The fetcher sees an object,
not an array, and makes an empty page of it, and the sync then ends with OK
having saved nothing. The model keeps this behaviour and states it in
`Requests.ErrorObjectIsEmptyPage` and `Pagination.RefusedFirstPageSyncsNothing`.

## Model

| member | source | states |
|---|---|---|
| OmgTypes.NewRepo | core/omg.c:327-337 | A new repository has every string absent, every number zero and the private flag false. |
| OmgTypes.EmptyString | core/omg.c:139-144 | A string is empty exactly when it is absent or has no characters. |
| ResponseBuffer.MemCb | core/omg.c:56-72 | On success the body becomes old body ++ chunk, the size grows by the chunk length, a NUL follows the body, and the chunk length is returned. On a failed `realloc`, 0 is returned and the buffer is unchanged. |
| ResponseBuffer.ReceiveFrom | core/omg.c:56-72 | Chunks are handed over in order. The transfer aborts exactly when a callback reports a short count: a failed `realloc` on a non-empty chunk. A terminated buffer stays terminated. |
| ResponseBuffer.ReceivedBody | core/omg.c:56-72 | After the transfer the body is the old body followed by exactly the chunks handed over, in order. |
| ResponseBuffer.Receive | core/omg.c:245-248 | A whole transfer delivers a prefix of the chunks. It delivers all of them unless it aborts, and the body is their concatenation. |
| ResponseBuffer.UpToNul | core/omg.c:264 | A C-string reader sees the longest prefix without a NUL: the result is a prefix, holds no NUL, and is followed by a NUL unless it is the whole text. |
| ResponseBuffer.NulFreeReadsWhole | core/omg.c:264 | Text without a NUL is read whole. |
| ResponseBuffer.UpToNulStopsAtNul | core/omg.c:264 | A reader stops at a NUL and never sees what follows it. |
| ResponseBuffer.UpToNulReadsOn | core/omg.c:264 | A reader that finds no NUL in the first text goes on into the next. |
| ResponseBuffer.ReadingPastAllocation | core/omg.c:245-264 | Reading the allocation and the memory past it as a C string: a terminated buffer is read only up to the first NUL of its body, a NUL-free terminated body is read exactly, and a NUL-free unterminated buffer is read whole and then on into the memory past it. |
| ResponseBuffer.CString | core/omg.c:264 | What `json_loads` reads from the buffer: for a terminated buffer, the body up to its first NUL, and the whole body when it has none. For an unterminated buffer with a NUL-free body, the whole allocation and then the memory past it up to a NUL. |
| ResponseBuffer.AllocateResponse | core/omg.c:245 | The `malloc(1)` buffer has an empty body. It is terminated only if the allocator happened to leave a NUL in its one character. |
| ResponseBuffer.EmptyTransferLeavesBufferUnterminated | core/omg.c:245 | With an empty response body the transfer completes and leaves the buffer as allocated, so the buffer handed to `json_loads` has a terminator only when its one uninitialised byte happens to be NUL. |
| ResponseBuffer.EmptyResponse | core/omg.c:245 | The corrected initial buffer is empty and already terminated. |
| ResponseBuffer.ReceivedBodyIsTerminated | core/omg.c:56-72 | From the corrected buffer, every transfer leaves a terminated buffer holding exactly the delivered chunks, whether it completed or aborted. |
| Mappers.DupJsonString | core/omg.c:371-378 | A key holding JSON null maps to an absent string, and a key holding a string maps to that string. The key must be present and hold one of the two. |
| Mappers.RepoFromJson | core/omg.c:380-403 | Every one of the thirteen columns is read from its member. The license is absent when `license` is null and is `license.key` otherwise. |
| Mappers.RepoMembersScalars | core/omg.c:380-403 | The id, private flag and four counts of a repository object built from a record read back as that record's values. |
| Mappers.RepoMembersStrings | core/omg.c:380-403 | The six nullable strings and the license of a repository object built from a record read back unchanged, and the object has the shape the mapper needs. |
| Mappers.RepoToJson | core/omg.c:380-403 | Round trip: `repo_from_json` maps the API form of any record back to the same record. |
| Mappers.StrJsonReadsBack | core/omg.c:371-378 | A nullable string written as a string or as null reads back through `dup_json_string` unchanged. |
| Mappers.NullLicenseAndHomepageAreAbsent | core/omg.c:380-403 | `"license": null` and `"homepage": null` give no license and no homepage. Null never becomes text. |
| Mappers.StarFromJson | core/omg.c:681-684 | A star takes its repository from the `repo` member and its timestamp from `starred_at`. |
| Mappers.StarToJson | core/omg.c:681-684 | Round trip: the star mapping reads the API form of any star back to the same star. |
| Mappers.Int32 | core/omg.c:872-878 | Converting a JSON integer to a C `int` gives a 32-bit value congruent to it. A value that fits in 32 bits is unchanged. |
| Mappers.IntegerOrDefault | core/omg.c:872-878 | A missing key gives -1. A present non-integer gives 0. A present integer within 32 bits gives that integer. |
| Mappers.UserFromJson | core/omg.c:905-927 | Every one of the eighteen profile fields is read from its member: the nine nullable strings by the null-to-absent rule, the id, flag and four counts by jansson's accessors, and the private repository count, private gist count and disk usage by `integer_or_default`, so they are -1 when the key is missing. |
| Mappers.UserMembersNames | core/omg.c:908-913 | The login, name, company, blog and location of a profile object built from a record read back unchanged. |
| Mappers.UserMembersContacts | core/omg.c:913-925 | The email, bio, Twitter name and creation time of a profile object built from a record read back unchanged. |
| Mappers.UserMembersNumbers | core/omg.c:905-926 | The id, the hireable flag and the six counts of a profile object built from a record read back as that record's values, when the three defaulted counts fit in an `int`. |
| Mappers.UserToJson | core/omg.c:905-927 | Round trip: the profile mapping reads the API form of any profile whose three defaulted counts fit in an `int` back to the same profile. |
| Mappers.MissingPrivateCountsAreMinusOne | core/omg.c:872-878 | Another user's profile, without the private counts and disk usage, gets -1 for all three. |
| Requests.Transfer | core/omg.c:249-264 | A transfer `mem_cb` cut short is a curl failure with libcurl's write error message. A complete one carries the status code and what the decoder made of the buffer read as a C string. That is the body up to its first NUL when the buffer is terminated. Otherwise it is the allocation and whatever follows it, up to a NUL. |
| Requests.ReceivedBodyReachesRequest | core/omg.c:56-72 | Starting from the corrected, terminated initial buffer (not the `malloc(1)` buffer as written), a failed `realloc` in `mem_cb` makes `omg_request` return a CURL error. A complete transfer hands the decoder the chunks joined in order, up to the first NUL among them, and the request succeeds exactly when that text decodes. |
| Requests.EmptyBodyDecodesPastBuffer | core/omg.c:245-264 | As written, an empty 200 body gives the decoder the stray character of the `malloc(1)` buffer followed by the memory past the allocation up to its first NUL, not the empty text. Only when that stray byte is NUL is the empty text decoded. |
| Requests.EmbeddedNulEndsDecodedText | core/omg.c:264 | A body of `{}`, a NUL and more text is decoded as `{}`: nothing after the NUL reaches the decoder. |
| Requests.ErrorObjectIsEmptyPage | core/omg.c:255-270 | A 403 whose body is a JSON object is a successful request with that document, and the repository page made from it is empty. |
| Requests.Request | core/omg.c:233-271 | A transport error is a CURL error with curl's message. 204 and 304 succeed with no document. A body that does not decode is a JSON error with the decoder's text. Anything else succeeds with the decoded document. |
| Requests.FetchReposPage | core/omg.c:451-469 | A request error is returned unchanged. Otherwise there is one record per array element, in order, each read from its element. A 204 or 304 gives an empty page. |
| Requests.FetchStarsPage | core/omg.c:667-689 | The same for stars: each star's repository comes from the element's `repo` and its timestamp from `starred_at`. |
| Requests.Whoami | core/omg.c:880-930 | A request error is returned unchanged. A `message` of "Not Found" is the GitHub error "User Not Found". Any other message is "GitHub PAT authentication failed". A profile is returned exactly when there is no message, and it is then the profile mapping of the document, all eighteen fields read from their members. |
| UpsertStore.Upsert | core/omg.c:423-446 | An upsert batch keeps every existing key, and every key it adds comes from a row whose step succeeded. |
| UpsertStore.UpsertKeys | core/omg.c:423-446 | After an upsert batch the keys are exactly the old keys and those of successful rows. |
| UpsertStore.UpsertLastWrites | core/omg.c:423-446 | After an upsert batch each key a successful row wrote holds the value of the last such row. |
| UpsertStore.UpsertUntouched | core/omg.c:423-446 | An upsert batch leaves every key no successful row wrote at its old value. |
| UpsertStore.UpsertLastWriteWins | core/omg.c:405-449 | After an ON CONFLICT upsert batch, the keys are the old keys plus those of successful rows. Each key holds the value of its last successful row. Keys no successful row wrote keep their value. |
| UpsertStore.LastWriteOf | core/omg.c:405-449 | Every key written by a successful row has a last such row. |
| UpsertStore.UpsertIdempotent | core/omg.c:405-449 | Replaying a batch with the same row outcomes changes nothing. |
| UpsertStore.StarredRepos | core/omg.c:746-749 | The repositories of a star batch are saved in batch order. |
| UpsertStore.SaveRepos | core/omg.c:405-449 | OK exactly when the statement prepares; a prepare failure is `OMG_CODE_DB` and writes nothing. Failed rows are skipped. Each successful id holds its last successful row with all columns. Other ids and the other two tables are untouched. |
| UpsertStore.InsertOrIgnore | core/omg.c:478-494 | Existing markers stay. Every successful id becomes a marker, and nothing else is added. |
| UpsertStore.SaveMyRepos | core/omg.c:471-497 | The repositories are saved first, and their error is returned as is. A marker statement that fails to prepare returns `OMG_CODE_DB` after the repositories are saved. On OK the markers are the old markers plus the successful ids. Stars are untouched. |
| UpsertStore.SaveMyReposIdempotent | core/omg.c:471-497 | Saving the same batch twice leaves the same tables, markers included, as saving it once. |
| UpsertStore.SaveMyStars | core/omg.c:745-781 | The starred repositories are saved first, and their error is returned as is. A star statement that fails to prepare returns `OMG_CODE_DB` after the repositories are saved. On OK each starred id holds the timestamp of its last successful row. Ids not in the batch keep their star, and `omg_my_repo` is untouched. |
| UpsertStore.RestarKeepsLatestTimestamp | core/omg.c:757-761 | Starring a repository again keeps one star row for it, holding the newer timestamp. |
| UpsertStore.Unstar | core/omg.c:809-839 | An id without an `omg_repo` row is an `OMG_CODE_DB` failure that changes nothing. On success only that id's star row is removed, the repository row and markers stay, and the remote result is returned. |
| Pagination.SyncFrom | core/omg.c:499-523 | Pages are requested in consecutive order. Every page before the last is full. The test cap bounds the pages. The tables are exactly those left by saving the requested pages in order. |
| Pagination.SyncRepos | core/omg.c:499-523 | Repository pages 1, 2, ... are saved with `save_my_repos`. The test build requests at most 2 pages. |
| Pagination.SyncStars | core/omg.c:783-807 | Star pages 1, 2, ... are saved with `save_my_stars`. The test build requests at most 2 pages. |
| Pagination.FailedSyncCause | core/omg.c:507-515 | A failing sync returns the error of its last page: the fetch's, or that of saving the page over the tables the earlier pages left. |
| Pagination.PassedSyncCause | core/omg.c:500-521 | A succeeding sync saved its last page without error, and that page was short or was the capped last page. |
| Pagination.SyncFromStops | core/omg.c:502-519 | The turns that do not go on: past the test cap nothing is requested and the sync succeeds; a failed fetch or save ends it after that one request with that error; a short page that saves cleanly ends it with OK. |
| Pagination.SyncFromShift | core/omg.c:500-521 | A full page that saves cleanly makes the sync end as the sync from the next page does, one request later. The tables before its last page are the same. |
| Pagination.SyncFromLastTurn | core/omg.c:502-519 | When a turn does not go on, at most that one page is requested, and the sync returns what fetching or saving that page returned; a clean save there means a short page. |
| Pagination.FailedSyncRequested | core/omg.c:502-515 | A failing sync requested at least one page. |
| Pagination.FailedSyncLast | core/omg.c:507-515 | The last page of a failing sync is the one whose fetch or save failed, with that error. |
| Pagination.PassedSyncLast | core/omg.c:500-521 | The last page of a succeeding sync was fetched and saved cleanly, and was short or was the capped last page. |
| Pagination.SyncFromStep | core/omg.c:500-521 | A full page that saves cleanly is followed by a request for the next page, from the tables that save left. |
| Pagination.ShortPageEndsSync | core/omg.c:517-519 | A short page that saves cleanly ends the sync with OK after one request. |
| Pagination.FetchFailureEndsSync | core/omg.c:508-511 | A failed fetch ends the sync with that error and changes nothing. |
| Pagination.ShortPageStopsSync | core/omg.c:499-523 | Full pages, then a short page k, all saving cleanly: exactly the pages up to k are requested, and the sync succeeds. |
| Pagination.ShortThirdPageEndsSync | core/omg.c:499-523 | Pages of 100, 100 and 37 take exactly three requests, and the sync succeeds. |
| Pagination.EmptyFourthPageEndsSync | core/omg.c:499-523 | Pages of 100, 100, 100 and 0 take exactly four requests, and the sync succeeds. |
| Pagination.RefusedFirstPageSyncsNothing | core/omg.c:499-523 | A first page refused with a 403 and GitHub's error object ends the repository sync after one request with OK and no repository saved. |
| Pagination.NoContentEndsSync | core/omg.c:257-261 | A 204 or 304 on the first page is an empty page: one request, OK, no repository saved. |
| Pagination.FetchErrorStopsSync | core/omg.c:499-523 | A fetch error at page k, after clean full pages, is returned unchanged. The earlier pages stay saved, and nothing after k is requested. |
| Pagination.SaveErrorStopsSync | core/omg.c:499-523 | A save error at page k, after clean full pages, is returned unchanged with the tables that save left. Nothing after k is requested. |
| Pagination.FullPagesStopAtPrepareFailure | core/omg.c:508-515 | A server serving only full pages still sees the sync end, at the first page whose marker statement does not prepare, with that error, after exactly that many requests. |
| Pagination.TestBuildFetchesAtMostTwoPages | core/omg.c:502-506 | In the test build at most two pages are requested. |
| QueryBuilder.Compose | core/omg.c:543-572 | As written, over any base and ordering: success exactly when the whole query is at most 512 characters, and it is then base, keyword clause, language clause and ordering in that order. The first oversized append gives its own "buffer not enough" message. Every failure is `OMG_CODE_INTERNAL`, after more than 513 characters were written. |
| QueryBuilder.BuildQuery | core/omg.c:525-572 | The query for either view is accepted exactly when it is at most 512 characters, and is then the full query. A rejected one is `OMG_CODE_INTERNAL` and has overrun the buffer. |
| QueryBuilder.ComposeBounded | core/omg.c:543-572 | Corrected appends: success exactly when the query and its NUL fit in 512 characters. Nothing is ever written past the buffer. |
| QueryBuilder.BuildQueryBounded | core/omg.c:525-572 | The corrected builder accepts exactly the queries shorter than 512 characters and never writes past the buffer. |
| QueryBuilder.FragmentLengths | core/omg.c:529-541 | The base select is 211 characters for repositories and 257 for stars. The ordering is 25 characters. |
| QueryBuilder.ClauseLengths | core/omg.c:543-557 | The keyword clause adds 81 characters plus the keyword twice. The language clause adds 27 characters plus the language. |
| QueryBuilder.QueryLength | core/omg.c:525-572 | The query length is the sum of the fragment lengths, each clause counted only when its argument is not `empty_string`. |
| QueryBuilder.EmptyFiltersAreIgnored | core/omg.c:139-144 | An empty keyword or language gives the same result as a missing one. |
| QueryBuilder.UnfilteredQuery | core/omg.c:525-572 | Without filters the query is the base select followed by the view's ordering. |
| QueryBuilder.LongKeywordRejected | core/omg.c:543-552 | A keyword over 110 characters is rejected at the keyword append on either view. |
| QueryBuilder.KeywordFilterFollowsBase | core/omg.c:543-566 | With a keyword, the accepted query starts with the base select, continues with the keyword clause and ends with the ordering. |
| QueryBuilder.ExactFitOverflows | core/omg.c:566-572 | A 249-character language on the repository view gives an accepted 512-character query, after 513 characters were stored in the 512-character buffer. |
| QueryBuilder.BoundedBuilderAgrees | core/omg.c:525-572 | Wherever the query fits with its terminator, the corrected builder produces what the builder as written does. |
| QueryBuilder.PrepareQuery | core/omg.c:525-583 | A build error is returned before anything is prepared. Otherwise the call succeeds exactly when the database accepts the full query. A rejected query is `OMG_CODE_DB` with the database's message. |
| Trending.ParseDecimal | core/omg.c:1125 | `atoi` on a run of k digits gives a number below ten to the k, and a run of zeros gives zero. |
| Trending.DecimalRoundTrip | core/omg.c:1125 | `atoi` reads a star count printed as plain digits back unchanged. |
| Trending.Entry | core/omg.c:1122-1126 | An entry has the language, the full name and the parsed star count. Everything else is as `omg_new_repo` leaves it. |
| Trending.EntryLeavesOtherFieldsUnset | core/omg.c:327-337 | Apart from the three captured fields an entry has no strings, zero counts and is not private. |
| Trending.Cursor | core/omg.c:1104-1128 | The k-th cursor, when the loop gets that far, is at least k characters shorter than the page. |
| Trending.CursorIsSuffix | core/omg.c:1128 | Every cursor is a suffix of the page. |
| Trending.CursorAdvances | core/omg.c:1128 | Every match moves the cursor strictly forward. |
| Trending.MatchRun | core/omg.c:1106-1111 | The loop runs through consecutive matches from iteration k. It stops at the cap or at a cursor the pattern does not match. |
| Trending.ParseTrending | core/omg.c:1099-1133 | At most 25 entries. Entry i is made from the match at the i-th cursor. With fewer than 25, the pattern fails at the next cursor. Never an error. |
| Trending.ManyMatchesAreCapped | core/omg.c:1106 | A page matching 25 or more times in a row yields exactly 25 entries. |
| Trending.ThreeBlocksThenNoMatch | core/omg.c:1106-1111 | Three matches followed by a miss give exactly three entries, and no error. |
| Trending.EntryKeepsStarCount | core/omg.c:1125 | An entry's star count is the number the page printed, when the page printed it as plain digits. |

## Left out

- The libcurl transport, TLS, headers and the URL `sprintf` into 128-byte buffers are not modelled. An exchange is a parameter, given as what curl reports.
- `omg_download` and the trending HTTP fetch are not modelled. They are I/O; only the parse of the fetched page is modelled.
- The jansson decoder is a parameter: a body either decodes to a `Json` value or is malformed with a message.
- `json_integer_value` returning 0 for a non-integer is taken as given.
- SQLite's prepare, bind, step and reset are an oracle per statement: whether it prepares, which row steps reach `SQLITE_DONE`, and the error message.
- The evaluation of the SELECT against the views is not modelled; the query is modelled as text.
- The views and `create_table.h` are not part of this model. An `omg_my_star` row is modelled by its `starred_at` alone.
- The read path is not modelled: `omg_query_repos`/`omg_query_stars` with their two-pass counting, `repo_from_db`, commits and releases.
- The PCRE engine and the pattern are a matcher oracle. Any result must end inside the text after at least one character, with group 3 a non-empty run of digits.
- Memory management is not modelled: all `free_*` functions, the cleanup attributes and `malloc` of the record arrays.
- Logging to stderr and the VERBOSE printing are not modelled.
- The `sprintf(sql, "%s...", sql, ...)` appends pass overlapping source and destination buffers. They are modelled as the concatenation they are meant to perform.
- `QueryBuilder.PrepareQuery` keeps the code's `current_len > SQL_DEFAULT_LEN` check. It therefore uses `BuildQuery` as written, not the corrected builder; see Findings.
- Keywords are placed in the SQL text unescaped, as the code does. What a quote in a keyword does to the query is not modelled.
- `UpsertStore.Unstar`: the vestigial second step of the id lookup and the `DELETE /user/starred` request are not modelled. The request's result is the parameter `remote`, and the lookup's row count is whether the id has an `omg_repo` row.
- `Trending.EntryKeepsStarCount`: only counts printed as plain digits are covered. Group 3 of the pattern at core/omg.c:87-89 is a run of digits just before " stars this", so a count printed with thousands separators ("1,234") keeps only its last group (234). The matcher is an oracle here, so the model cannot show which group it captures.
- `Trending.ParseTrending`: `atoi` overflow on star counts beyond `int` is not modelled; `ParseDecimal` reads any run of digits exactly.
- `UpsertStore.SaveRepos`: the `sqlite3_bind_int` truncation of the id and the counts to 32 bits is not modelled. Ids and counts are unbounded integers, so two ids that differ by a multiple of 2^32 are different keys here, while the code would store them under one key.
- A missing string key, or a non-string `message`, is a precondition, because the code passes NULL to `strdup` or `strcmp`. It is not given an "absent" result.
- `Pagination.SyncFrom`: without the test cap the C loop ends at a short page, a fetch error or a save error. The model takes as a parameter a `horizon` page that is short, fails to fetch, or fails to save whatever the tables hold, as `save_my_repos` and `save_my_stars` do when a statement does not prepare. Not covered is a server that serves full pages forever while every save succeeds, on which the C loop does not end.
- `QueryBuilder.Compose`: lengths count characters, each standing for one byte of the UTF-8 text. A keyword with multi-byte characters is not modelled as longer than its character count.
- `QueryBuilder.BuildQuery`: the same byte-per-character reading of the 512 limit.
- `QueryBuilder.ExactFitOverflows`: the 249-character language is 249 bytes of UTF-8 text.
- `QueryBuilder.PrepareQuery`: the 512 limit is checked against the character count, each character standing for one UTF-8 byte.

## Findings

| source | as written | input that shows it | evidently intended | confidence | as-written member | corrected member |
|---|---|---|---|---|---|---|
| core/omg.c:245 | The response buffer starts as `malloc(1)` with size 0, and only `mem_cb` writes a terminator. | A 200 response with an empty body: `mem_cb` is never called, and `json_loads` reads an unterminated buffer. | Start the buffer with a NUL, e.g. `memory[0] = 0`. | not executed | ResponseBuffer.EmptyTransferLeavesBufferUnterminated | ResponseBuffer.ReceivedBodyIsTerminated |
| core/omg.c:567 | Each append is refused only when `current_len > SQL_DEFAULT_LEN`. | Repository view, no keyword, a 249-character language: the query is 512 characters, is accepted, and needs 513 bytes with its NUL. | Refuse when `current_len >= SQL_DEFAULT_LEN`. | not executed | QueryBuilder.ExactFitOverflows | QueryBuilder.BuildQueryBounded |
| core/omg.c:544-548 | `sprintf` writes each append into the 512-byte buffer before its length is checked. | A 111-character keyword on the repository view: 514 characters and a NUL are written before the keyword check refuses them. | Measure the append (e.g. with `snprintf`) before writing it. | not executed | QueryBuilder.BuildQuery | QueryBuilder.ComposeBounded |

=== FILE: json_model.dfy ===
/**
  The decoded JSON documents the program reads, and the null-safe accessors
  of the jansson library it uses on them. A `Node` is a possibly NULL
  `json_t *`: every accessor accepts NULL, as jansson's do.
 */
module JsonModel {
  import opened OmgTypes

  /** A decoded JSON value. Object keys are unique, as in a jansson object. */
  datatype Json =
    | JNull
    | JBool(b: bool)
    | JInteger(i: int)
    | JReal(r: real)
    | JString(s: string)
    | JArray(items: seq<Json>)
    | JObject(fields: map<string, Json>)

  /** A `json_t *` that may be NULL. */
  type Node = Option<Json>

  /** `json_object_get`: NULL unless `v` is an object holding `key`. */
  function ObjectGet(v: Node, key: string): Node {
    if v.Some? && v.value.JObject? && key in v.value.fields then Some(v.value.fields[key]) else None
  }

  /** `json_is_null`: false for a NULL pointer. */
  predicate IsNull(v: Node) {
    v == Some(JNull)
  }

  /** `json_string_value`: NULL unless `v` is a string. */
  function StringValue(v: Node): Str {
    if v.Some? && v.value.JString? then Some(v.value.s) else None
  }

  /** `json_integer_value`: 0 unless `v` is an integer. */
  function IntegerValue(v: Node): int {
    if v.Some? && v.value.JInteger? then v.value.i else 0
  }

  /** `json_boolean_value`: true only for `true`. */
  predicate BooleanValue(v: Node) {
    v == Some(JBool(true))
  }

  /** `json_array_size`: 0 unless `v` is an array. */
  function ArraySize(v: Node): nat {
    if v.Some? && v.value.JArray? then |v.value.items| else 0
  }

  /** `json_array_get` at an index below `ArraySize(v)`. */
  function ArrayGet(v: Node, i: nat): Node
    requires i < ArraySize(v)
  {
    Some(v.value.items[i])
  }

  /** The JSON form of a nullable string field. */
  function StrJson(s: Str): Json {
    if s.Some? then JString(s.value) else JNull
  }
}

=== FILE: mappers.dfy ===
/**
  The entity mappers: `dup_json_string`, `repo_from_json`, the star mapping of
  `fetch_stars_by_page`, `integer_or_default` and the profile mapping of
  `omg_whoami`. Each is paired with an encoder that produces JSON the mapper
  reads back to the same record.
 */
module Mappers {
  import opened OmgTypes
  import opened JsonModel

  /** `dup_json_string` only works when the key is present and holds a string
      or null: otherwise it passes NULL to `strdup`. */
  predicate StringOrNull(root: Node, key: string) {
    var v := ObjectGet(root, key);
    v == Some(JNull) || (v.Some? && v.value.JString?)
  }

  /** The string field `field` is what the key holds: absent exactly when the
      key holds JSON null, and otherwise that string. */
  ghost predicate MapsString(root: Node, key: string, field: Str) {
    && (field.None? <==> ObjectGet(root, key) == Some(JNull))
    && (field.Some? ==> ObjectGet(root, key) == Some(JString(field.value)))
  }

  /** `dup_json_string`: an explicit null becomes NULL, a string is copied. */
  function DupJsonString(root: Node, key: string): (r: Str)
    requires StringOrNull(root, key)
    ensures MapsString(root, key, r)
  {
    var v := ObjectGet(root, key);
    if IsNull(v) then None else StringValue(v)
  }

  /** The `license` member is null, or an object whose `key` is a string or null. */
  predicate LicenseShaped(license: Node) {
    IsNull(license) || StringOrNull(license, "key")
  }

  /** What `repo_from_json` needs of its argument to avoid `strdup(NULL)`. */
  predicate RepoShaped(root: Node) {
    && StringOrNull(root, "full_name")
    && StringOrNull(root, "description")
    && StringOrNull(root, "created_at")
    && StringOrNull(root, "pushed_at")
    && StringOrNull(root, "language")
    && StringOrNull(root, "homepage")
    && LicenseShaped(ObjectGet(root, "license"))
  }

  /** The license key a repository object carries: none when `license` is
      null, otherwise whatever `license.key` holds. */
  ghost predicate MapsLicense(root: Node, license: Str) {
    var l := ObjectGet(root, "license");
    if IsNull(l) then license.None? else MapsString(l, "key", license)
  }

  /** Every column of `r` is read from the matching member of `root`. */
  ghost predicate RepoMatchesJson(r: Repo, root: Node) {
    && r.id == IntegerValue(ObjectGet(root, "id"))
    && MapsString(root, "full_name", r.fullName)
    && MapsString(root, "description", r.description)
    && r.isPrivate == BooleanValue(ObjectGet(root, "private"))
    && MapsString(root, "created_at", r.createdAt)
    && MapsLicense(root, r.license)
    && MapsString(root, "pushed_at", r.pushedAt)
    && r.stargazersCount == IntegerValue(ObjectGet(root, "stargazers_count"))
    && r.watchersCount == IntegerValue(ObjectGet(root, "watchers_count"))
    && r.forksCount == IntegerValue(ObjectGet(root, "forks_count"))
    && MapsString(root, "language", r.lang)
    && MapsString(root, "homepage", r.homepage)
    && r.size == IntegerValue(ObjectGet(root, "size"))
  }

  /** `repo_from_json`. */
  function RepoFromJson(root: Node): (r: Repo)
    requires RepoShaped(root)
    ensures RepoMatchesJson(r, root)
  {
    var license := ObjectGet(root, "license");
    Repo(
      IntegerValue(ObjectGet(root, "id")),
      DupJsonString(root, "full_name"),
      DupJsonString(root, "description"),
      BooleanValue(ObjectGet(root, "private")),
      DupJsonString(root, "created_at"),
      if IsNull(license) then None else DupJsonString(license, "key"),
      DupJsonString(root, "pushed_at"),
      IntegerValue(ObjectGet(root, "stargazers_count")),
      IntegerValue(ObjectGet(root, "watchers_count")),
      IntegerValue(ObjectGet(root, "forks_count")),
      DupJsonString(root, "language"),
      DupJsonString(root, "homepage"),
      IntegerValue(ObjectGet(root, "size")))
  }

  /** The members of a repository object as the GitHub API would send it. */
  function RepoMembers(r: Repo): map<string, Json> {
    map[
      "id" := JInteger(r.id),
      "full_name" := StrJson(r.fullName),
      "description" := StrJson(r.description),
      "private" := JBool(r.isPrivate),
      "created_at" := StrJson(r.createdAt),
      "license" := if r.license.None? then JNull else JObject(map["key" := JString(r.license.value)]),
      "pushed_at" := StrJson(r.pushedAt),
      "stargazers_count" := JInteger(r.stargazersCount),
      "watchers_count" := JInteger(r.watchersCount),
      "forks_count" := JInteger(r.forksCount),
      "language" := StrJson(r.lang),
      "homepage" := StrJson(r.homepage),
      "size" := JInteger(r.size)]
  }

  /** The numeric and boolean members read back as the record's columns. */
  lemma RepoMembersScalars(r: Repo)
    ensures var j := Some(JObject(RepoMembers(r)));
            && IntegerValue(ObjectGet(j, "id")) == r.id
            && BooleanValue(ObjectGet(j, "private")) == r.isPrivate
            && IntegerValue(ObjectGet(j, "stargazers_count")) == r.stargazersCount
            && IntegerValue(ObjectGet(j, "watchers_count")) == r.watchersCount
            && IntegerValue(ObjectGet(j, "forks_count")) == r.forksCount
            && IntegerValue(ObjectGet(j, "size")) == r.size
  {
    var j := Some(JObject(RepoMembers(r)));
    assert ObjectGet(j, "id") == Some(JInteger(r.id));
    assert ObjectGet(j, "private") == Some(JBool(r.isPrivate));
    assert ObjectGet(j, "stargazers_count") == Some(JInteger(r.stargazersCount));
    assert ObjectGet(j, "watchers_count") == Some(JInteger(r.watchersCount));
    assert ObjectGet(j, "forks_count") == Some(JInteger(r.forksCount));
    assert ObjectGet(j, "size") == Some(JInteger(r.size));
  }

  /** The string members, and the license, read back as the record's columns. */
  lemma RepoMembersStrings(r: Repo)
    ensures var j := Some(JObject(RepoMembers(r)));
            && RepoShaped(j)
            && DupJsonString(j, "full_name") == r.fullName
            && DupJsonString(j, "description") == r.description
            && DupJsonString(j, "created_at") == r.createdAt
            && DupJsonString(j, "pushed_at") == r.pushedAt
            && DupJsonString(j, "language") == r.lang
            && DupJsonString(j, "homepage") == r.homepage
            && (var l := ObjectGet(j, "license"); (if IsNull(l) then None else DupJsonString(l, "key")) == r.license)
  {
    var j := Some(JObject(RepoMembers(r)));
    StrJsonReadsBack(j, "full_name", r.fullName);
    StrJsonReadsBack(j, "description", r.description);
    StrJsonReadsBack(j, "created_at", r.createdAt);
    StrJsonReadsBack(j, "pushed_at", r.pushedAt);
    StrJsonReadsBack(j, "language", r.lang);
    StrJsonReadsBack(j, "homepage", r.homepage);
    var license := ObjectGet(j, "license");
    if r.license.Some? {
      StrJsonReadsBack(license, "key", r.license);
    }
  }

  /** A repository as the GitHub API would send it; `repo_from_json` reads it
      back to the same record. */
  function RepoToJson(r: Repo): (j: Json)
    ensures RepoShaped(Some(j)) && RepoFromJson(Some(j)) == r
  {
    RepoMembersScalars(r);
    RepoMembersStrings(r);
    JObject(RepoMembers(r))
  }

  /** A nullable string written with `StrJson` is read back unchanged. */
  lemma StrJsonReadsBack(root: Node, key: string, s: Str)
    requires ObjectGet(root, key) == Some(StrJson(s))
    ensures StringOrNull(root, key) && DupJsonString(root, key) == s
  {
  }

  /** A repository with `"license": null` and `"homepage": null` has neither a
      license nor a homepage: the null never becomes the text "null". */
  lemma NullLicenseAndHomepageAreAbsent(root: Node)
    requires RepoShaped(root)
    requires IsNull(ObjectGet(root, "license")) && IsNull(ObjectGet(root, "homepage"))
    ensures RepoFromJson(root).license == None && RepoFromJson(root).homepage == None
  {
  }

  /** What the star mapping needs of one element of the starred list. */
  predicate StarShaped(item: Node) {
    RepoShaped(ObjectGet(item, "repo")) && StringOrNull(item, "starred_at")
  }

  /** The star mapping of `fetch_stars_by_page`: the repository comes from
      `repo`, the timestamp from `starred_at`. */
  function StarFromJson(item: Node): (s: Star)
    requires StarShaped(item)
    ensures RepoMatchesJson(s.repo, ObjectGet(item, "repo"))
    ensures MapsString(item, "starred_at", s.starredAt)
  {
    Star(DupJsonString(item, "starred_at"), RepoFromJson(ObjectGet(item, "repo")))
  }

  /** A starred-list element as the API sends it; the mapper reads it back. */
  function StarToJson(s: Star): (j: Json)
    ensures StarShaped(Some(j)) && StarFromJson(Some(j)) == s
  {
    JObject(map["starred_at" := StrJson(s.starredAt), "repo" := RepoToJson(s.repo)])
  }

  const INT32_MODULUS: int := 0x1_0000_0000

  /** The conversion of a `json_int_t` to a 32-bit C `int` (two's complement wrap). */
  function Int32(x: int): (r: int)
    ensures -INT32_MODULUS / 2 <= r < INT32_MODULUS / 2
    ensures (r - x) % INT32_MODULUS == 0
    ensures -INT32_MODULUS / 2 <= x < INT32_MODULUS / 2 ==> r == x
  {
    (x + INT32_MODULUS / 2) % INT32_MODULUS - INT32_MODULUS / 2
  }

  /** `integer_or_default`: a missing key gives -1; a present key gives its
      integer value as an `int`, and 0 when it is not an integer. */
  function IntegerOrDefault(obj: Node, key: string): (r: int)
    ensures ObjectGet(obj, key).None? ==> r == -1
    ensures ObjectGet(obj, key).Some? && !ObjectGet(obj, key).value.JInteger? ==> r == 0
    ensures ObjectGet(obj, key).Some? && ObjectGet(obj, key).value.JInteger?
            && -INT32_MODULUS / 2 <= ObjectGet(obj, key).value.i < INT32_MODULUS / 2
            ==> r == ObjectGet(obj, key).value.i
  {
    var v := ObjectGet(obj, key);
    if v.Some? then Int32(IntegerValue(v)) else -1
  }

  /** What `omg_whoami` needs of a profile document to avoid `strdup(NULL)`. */
  predicate UserShaped(resp: Node) {
    && StringOrNull(resp, "login")
    && StringOrNull(resp, "name")
    && StringOrNull(resp, "company")
    && StringOrNull(resp, "blog")
    && StringOrNull(resp, "location")
    && StringOrNull(resp, "email")
    && StringOrNull(resp, "bio")
    && StringOrNull(resp, "twitter_username")
    && StringOrNull(resp, "created_at")
  }

  /** Every field of `u` is read from the matching member of `resp`: the
      nullable strings by `dup_json_string`, three counts by
      `integer_or_default`, the rest by jansson's accessors. */
  ghost predicate UserMatchesJson(u: User, resp: Node) {
    && MapsString(resp, "login", u.login)
    && u.id == IntegerValue(ObjectGet(resp, "id"))
    && MapsString(resp, "name", u.name)
    && MapsString(resp, "company", u.company)
    && MapsString(resp, "blog", u.blog)
    && MapsString(resp, "location", u.location)
    && MapsString(resp, "email", u.email)
    && u.hireable == BooleanValue(ObjectGet(resp, "hireable"))
    && MapsString(resp, "bio", u.bio)
    && MapsString(resp, "twitter_username", u.twitterUsername)
    && u.publicRepos == IntegerValue(ObjectGet(resp, "public_repos"))
    && u.publicGists == IntegerValue(ObjectGet(resp, "public_gists"))
    && u.privateRepos == IntegerOrDefault(resp, "total_private_repos")
    && u.privateGists == IntegerOrDefault(resp, "private_gists")
    && u.followers == IntegerValue(ObjectGet(resp, "followers"))
    && u.following == IntegerValue(ObjectGet(resp, "following"))
    && MapsString(resp, "created_at", u.createdAt)
    && u.diskUsage == IntegerOrDefault(resp, "disk_usage")
  }

  /** The profile mapping at the end of `omg_whoami`. */
  function UserFromJson(resp: Node): (u: User)
    requires UserShaped(resp)
    ensures UserMatchesJson(u, resp)
    ensures ObjectGet(resp, "disk_usage").None? ==> u.diskUsage == -1
  {
    User(
      DupJsonString(resp, "login"),
      IntegerValue(ObjectGet(resp, "id")),
      DupJsonString(resp, "name"),
      DupJsonString(resp, "company"),
      DupJsonString(resp, "blog"),
      DupJsonString(resp, "location"),
      DupJsonString(resp, "email"),
      BooleanValue(ObjectGet(resp, "hireable")),
      DupJsonString(resp, "bio"),
      DupJsonString(resp, "twitter_username"),
      IntegerValue(ObjectGet(resp, "public_repos")),
      IntegerValue(ObjectGet(resp, "public_gists")),
      IntegerOrDefault(resp, "total_private_repos"),
      IntegerOrDefault(resp, "private_gists"),
      IntegerValue(ObjectGet(resp, "followers")),
      IntegerValue(ObjectGet(resp, "following")),
      DupJsonString(resp, "created_at"),
      IntegerOrDefault(resp, "disk_usage"))
  }

  /** The three counts `integer_or_default` reads are C `int`s. */
  predicate DefaultedCountsFit(u: User) {
    && -INT32_MODULUS / 2 <= u.privateRepos < INT32_MODULUS / 2
    && -INT32_MODULUS / 2 <= u.privateGists < INT32_MODULUS / 2
    && -INT32_MODULUS / 2 <= u.diskUsage < INT32_MODULUS / 2
  }

  /** The members of a profile document as the GitHub API would send it. */
  function UserMembers(u: User): map<string, Json> {
    map[
      "login" := StrJson(u.login),
      "id" := JInteger(u.id),
      "name" := StrJson(u.name),
      "company" := StrJson(u.company),
      "blog" := StrJson(u.blog),
      "location" := StrJson(u.location),
      "email" := StrJson(u.email),
      "hireable" := JBool(u.hireable),
      "bio" := StrJson(u.bio),
      "twitter_username" := StrJson(u.twitterUsername),
      "public_repos" := JInteger(u.publicRepos),
      "public_gists" := JInteger(u.publicGists),
      "total_private_repos" := JInteger(u.privateRepos),
      "private_gists" := JInteger(u.privateGists),
      "followers" := JInteger(u.followers),
      "following" := JInteger(u.following),
      "created_at" := StrJson(u.createdAt),
      "disk_usage" := JInteger(u.diskUsage)]
  }

  /** The first five nullable strings of a profile document read back
      unchanged. */
  lemma UserMembersNames(u: User)
    ensures var j := Some(JObject(UserMembers(u)));
            && StringOrNull(j, "login") && DupJsonString(j, "login") == u.login
            && StringOrNull(j, "name") && DupJsonString(j, "name") == u.name
            && StringOrNull(j, "company") && DupJsonString(j, "company") == u.company
            && StringOrNull(j, "blog") && DupJsonString(j, "blog") == u.blog
            && StringOrNull(j, "location") && DupJsonString(j, "location") == u.location
  {
    var j := Some(JObject(UserMembers(u)));
    StrJsonReadsBack(j, "login", u.login);
    StrJsonReadsBack(j, "name", u.name);
    StrJsonReadsBack(j, "company", u.company);
    StrJsonReadsBack(j, "blog", u.blog);
    StrJsonReadsBack(j, "location", u.location);
  }

  /** The other four nullable strings of a profile document read back
      unchanged. */
  lemma UserMembersContacts(u: User)
    ensures var j := Some(JObject(UserMembers(u)));
            && StringOrNull(j, "email") && DupJsonString(j, "email") == u.email
            && StringOrNull(j, "bio") && DupJsonString(j, "bio") == u.bio
            && StringOrNull(j, "twitter_username") && DupJsonString(j, "twitter_username") == u.twitterUsername
            && StringOrNull(j, "created_at") && DupJsonString(j, "created_at") == u.createdAt
  {
    var j := Some(JObject(UserMembers(u)));
    StrJsonReadsBack(j, "email", u.email);
    StrJsonReadsBack(j, "bio", u.bio);
    StrJsonReadsBack(j, "twitter_username", u.twitterUsername);
    StrJsonReadsBack(j, "created_at", u.createdAt);
  }

  /** The id, the flag and the counts of a profile document read back as the
      record's values; the three defaulted counts need to fit in an `int`. */
  lemma UserMembersNumbers(u: User)
    requires DefaultedCountsFit(u)
    ensures var j := Some(JObject(UserMembers(u)));
            && IntegerValue(ObjectGet(j, "id")) == u.id
            && BooleanValue(ObjectGet(j, "hireable")) == u.hireable
            && IntegerValue(ObjectGet(j, "public_repos")) == u.publicRepos
            && IntegerValue(ObjectGet(j, "public_gists")) == u.publicGists
            && IntegerOrDefault(j, "total_private_repos") == u.privateRepos
            && IntegerOrDefault(j, "private_gists") == u.privateGists
            && IntegerValue(ObjectGet(j, "followers")) == u.followers
            && IntegerValue(ObjectGet(j, "following")) == u.following
            && IntegerOrDefault(j, "disk_usage") == u.diskUsage
  {
    var j := Some(JObject(UserMembers(u)));
    assert ObjectGet(j, "id") == Some(JInteger(u.id));
    assert ObjectGet(j, "hireable") == Some(JBool(u.hireable));
    assert ObjectGet(j, "public_repos") == Some(JInteger(u.publicRepos));
    assert ObjectGet(j, "public_gists") == Some(JInteger(u.publicGists));
    assert ObjectGet(j, "total_private_repos") == Some(JInteger(u.privateRepos));
    assert ObjectGet(j, "private_gists") == Some(JInteger(u.privateGists));
    assert ObjectGet(j, "followers") == Some(JInteger(u.followers));
    assert ObjectGet(j, "following") == Some(JInteger(u.following));
    assert ObjectGet(j, "disk_usage") == Some(JInteger(u.diskUsage));
  }

  /** A profile as the GitHub API would send it; the profile mapping reads it
      back to the same record, provided the three counts `integer_or_default`
      narrows to an `int` fit in one. */
  function UserToJson(u: User): (j: Json)
    requires DefaultedCountsFit(u)
    ensures UserShaped(Some(j)) && UserFromJson(Some(j)) == u
  {
    UserMembersNames(u);
    UserMembersContacts(u);
    UserMembersNumbers(u);
    JObject(UserMembers(u))
  }

  /** A profile document without `total_private_repos`, `private_gists` or
      `disk_usage` (another user's profile) gets -1 for each. */
  lemma MissingPrivateCountsAreMinusOne(resp: Node)
    requires UserShaped(resp)
    requires ObjectGet(resp, "total_private_repos").None? && ObjectGet(resp, "private_gists").None?
    requires ObjectGet(resp, "disk_usage").None?
    ensures var u := UserFromJson(resp);
            u.privateRepos == -1 && u.privateGists == -1 && u.diskUsage == -1
  {
  }
}

=== FILE: omg_types.dfy ===
/**
  Records and error values shared by every part of the omg GitHub mirror:
  the repository, star and user records, the error codes, and the nullable
  C string.
 */
module OmgTypes {

  /** A value that may be missing; stands for a NULL pointer. */
  datatype Option<+T> = None | Some(value: T)

  /** A nullable C string (`char *`). */
  type Str = Option<string>

  /** The non-OK error codes of `omg_error`. */
  datatype Code = CodeCurl | CodeJson | CodeDb | CodeInternal | CodeGithub

  /** An `omg_error` whose code is not OK, with its human-readable message. */
  datatype Error = Error(code: Code, message: string)

  /** An operation that returns only an `omg_error`: OK, or a failure. */
  datatype Outcome = Pass | Fail(error: Error)

  /** An operation that fills an out-parameter on OK and leaves it unset on failure. */
  datatype Result<+T> = Success(value: T) | Failure(error: Error)

  /** One `omg_repo`: the id is the primary key, the other twelve fields are columns. */
  datatype Repo = Repo(
    id: int,
    fullName: Str,
    description: Str,
    isPrivate: bool,
    createdAt: Str,
    license: Str,
    pushedAt: Str,
    stargazersCount: int,
    watchersCount: int,
    forksCount: int,
    lang: Str,
    homepage: Str,
    size: int)

  /** One `omg_star`: a repository together with the time it was starred. */
  datatype Star = Star(starredAt: Str, repo: Repo)

  /** The `omg_user` profile snapshot returned by whoami. */
  datatype User = User(
    login: Str,
    id: int,
    name: Str,
    company: Str,
    blog: Str,
    location: Str,
    email: Str,
    hireable: bool,
    bio: Str,
    twitterUsername: Str,
    publicRepos: int,
    publicGists: int,
    privateRepos: int,
    privateGists: int,
    followers: int,
    following: int,
    createdAt: Str,
    diskUsage: int)

  /** `omg_new_repo`: every string NULL and, by C's rules for a compound
      literal, every number zero and the private flag false. */
  function NewRepo(): (r: Repo)
    ensures r.fullName.None? && r.description.None? && r.lang.None? && r.homepage.None?
    ensures r.createdAt.None? && r.pushedAt.None? && r.license.None?
    ensures r.id == 0 && r.stargazersCount == 0 && r.watchersCount == 0
    ensures r.forksCount == 0 && r.size == 0 && !r.isPrivate
  {
    Repo(0, None, None, false, None, None, None, 0, 0, 0, None, None, 0)
  }

  /** `empty_string`: NULL and "" are both empty. */
  function EmptyString(s: Str): (b: bool)
    ensures b <==> s == None || s == Some("")
  {
    s.None? || |s.value| == 0
  }
}

=== FILE: pagination.dfy ===
/**
  The pagination driver shared by `omg_sync_repos` and `omg_sync_stars`:
  fetch page 1, 2, 3, ... , save each page as one batch, and stop after the
  first page shorter than the page size, at the first error, or (in the
  test build) once the page number passes the cap.
 */
module Pagination {
  import opened OmgTypes
  import opened JsonModel
  import opened Requests
  import opened UpsertStore

  /** The page size `PER_PAGE` and the page cap of the test build. */
  datatype Config = Config(perPage: nat, pageCap: Option<nat>)

  /** The normal build: 100 per page, no cap. */
  const PRODUCTION: Config := Config(100, None)

  /** The `OMG_TEST` build: 10 per page, stop once the page number exceeds 2. */
  const TESTING: Config := Config(10, Some(2))

  /** A page that does not end the sync by itself: fetched, and not short. */
  predicate Full<T>(cfg: Config, f: Fetched<T>) {
    f.Page? && |f.items| >= cfg.perPage
  }

  /** The loop is sure to end: the test build's cap stops it, or page
      `horizon` is short, fails to fetch, or fails to save whatever the tables
      hold (as a batch save does when one of its statements does not
      prepare). */
  ghost predicate Ends<T>(cfg: Config, fetch: nat -> Fetched<T>, save: (Store, seq<T>, BatchFaults) -> Saved,
                          db: nat -> BatchFaults, horizon: nat) {
    || cfg.pageCap.Some?
    || !Full(cfg, fetch(horizon))
    || forall st: Store :: save(st, fetch(horizon).items, db(horizon)).outcome.Fail?
  }

  /** How many more pages the loop can request from `page` on. */
  function PagesLeft(cfg: Config, page: nat, horizon: nat): nat {
    var last := if cfg.pageCap.Some? then cfg.pageCap.value else horizon;
    if page > last then 0 else last + 1 - page
  }

  /** The tables after a sync, the `omg_error` it returned, and the page
      numbers it requested, in order. */
  datatype Synced = Synced(store: Store, outcome: Outcome, pages: seq<nat>)

  /** The tables after saving, in order, the `count` pages from `first` on
      that were fetched, whatever each save returned. */
  function SavedThrough<T>(s: Store, fetch: nat -> Fetched<T>, save: (Store, seq<T>, BatchFaults) -> Saved,
                           db: nat -> BatchFaults, first: nat, count: nat): Store
    decreases count
  {
    if count == 0 then s
    else
      var next := if fetch(first).Page? then save(s, fetch(first).items, db(first)).store else s;
      SavedThrough(next, fetch, save, db, first + 1, count - 1)
  }

  /** The loop body from page `page` on. */
  function SyncFrom<T>(cfg: Config, page: nat, s: Store, fetch: nat -> Fetched<T>,
                       save: (Store, seq<T>, BatchFaults) -> Saved, db: nat -> BatchFaults,
                       horizon: nat): (r: Synced)
    requires Ends(cfg, fetch, save, db, horizon)
    requires cfg.pageCap.None? ==> page <= horizon
    ensures forall i :: 0 <= i < |r.pages| ==> r.pages[i] == page + i
    ensures forall p :: page <= p < page + |r.pages| - 1 ==> Full(cfg, fetch(p))
    ensures cfg.pageCap.Some? ==> page + |r.pages| <= cfg.pageCap.value + 1 || r.pages == []
    ensures r.pages == [] <==> cfg.pageCap.Some? && page > cfg.pageCap.value
    ensures r.store == SavedThrough(s, fetch, save, db, page, |r.pages|)
    decreases PagesLeft(cfg, page, horizon)
  {
    if cfg.pageCap.Some? && page > cfg.pageCap.value then Synced(s, Pass, [])
    else match fetch(page)
      case FetchFailed(err) => Synced(s, Fail(err), [page])
      case Page(items) =>
        var saved := save(s, items, db(page));
        if saved.outcome.Fail? then Synced(saved.store, saved.outcome, [page])
        else if |items| < cfg.perPage then Synced(saved.store, Pass, [page])
        else
          var rest := SyncFrom(cfg, page + 1, saved.store, fetch, save, db, horizon);
          Synced(rest.store, rest.outcome, [page] + rest.pages)
  }

  /** `omg_sync_repos`: pages of the user's repositories, each saved with
      `save_my_repos`. */
  function SyncRepos(cfg: Config, s: Store, fetch: nat -> Fetched<Repo>, db: nat -> BatchFaults, horizon: nat): (r: Synced)
    requires Ends(cfg, fetch, SaveMyRepos, db, horizon) && 1 <= horizon
    ensures forall i :: 0 <= i < |r.pages| ==> r.pages[i] == i + 1
    ensures cfg.pageCap.Some? ==> |r.pages| <= cfg.pageCap.value
    ensures r.store == SavedThrough(s, fetch, SaveMyRepos, db, 1, |r.pages|)
  {
    SyncFrom(cfg, 1, s, fetch, SaveMyRepos, db, horizon)
  }

  /** `omg_sync_stars`: pages of the user's stars, each saved with
      `save_my_stars`. */
  function SyncStars(cfg: Config, s: Store, fetch: nat -> Fetched<Star>, db: nat -> BatchFaults, horizon: nat): (r: Synced)
    requires Ends(cfg, fetch, SaveMyStars, db, horizon) && 1 <= horizon
    ensures forall i :: 0 <= i < |r.pages| ==> r.pages[i] == i + 1
    ensures cfg.pageCap.Some? ==> |r.pages| <= cfg.pageCap.value
    ensures r.store == SavedThrough(s, fetch, SaveMyStars, db, 1, |r.pages|)
  {
    SyncFrom(cfg, 1, s, fetch, SaveMyStars, db, horizon)
  }

  /** Both statements of the batch save for `page` prepare. */
  predicate Prepares(db: nat -> BatchFaults, page: nat) {
    db(page).repoUpsert.prepareOk && db(page).marker.prepareOk
  }

  /** A page of `n` repositories. */
  predicate PageOf<T>(f: Fetched<T>, n: nat) {
    f.Page? && |f.items| == n
  }

  /** The turns of the loop that do not go on: past the cap nothing is
      requested; a failed fetch, a failed save or a short page that saves
      ends the loop after that one request. */
  lemma SyncFromStops<T>(cfg: Config, page: nat, s: Store, fetch: nat -> Fetched<T>,
                         save: (Store, seq<T>, BatchFaults) -> Saved, db: nat -> BatchFaults, horizon: nat)
    requires Ends(cfg, fetch, save, db, horizon) && (cfg.pageCap.None? ==> page <= horizon)
    ensures var r := SyncFrom(cfg, page, s, fetch, save, db, horizon);
            && (cfg.pageCap.Some? && page > cfg.pageCap.value ==> r == Synced(s, Pass, []))
            && (!(cfg.pageCap.Some? && page > cfg.pageCap.value) && fetch(page).FetchFailed? ==>
                  r == Synced(s, Fail(fetch(page).error), [page]))
            && (!(cfg.pageCap.Some? && page > cfg.pageCap.value) && fetch(page).Page? ==>
                  var saved := save(s, fetch(page).items, db(page));
                  && (saved.outcome.Fail? ==> r == Synced(saved.store, saved.outcome, [page]))
                  && (saved.outcome.Pass? && |fetch(page).items| < cfg.perPage ==>
                        r == Synced(saved.store, Pass, [page])))
  {
  }

  /** A turn of the loop that does not go on, as the last page of the sync:
      nothing or only `page` is requested, and the sync returns what fetching
      or saving that page returned. */
  lemma SyncFromLastTurn<T>(cfg: Config, page: nat, s: Store, fetch: nat -> Fetched<T>,
                            save: (Store, seq<T>, BatchFaults) -> Saved, db: nat -> BatchFaults, horizon: nat)
    requires Ends(cfg, fetch, save, db, horizon) && (cfg.pageCap.None? ==> page <= horizon)
    requires !(&& !(cfg.pageCap.Some? && page > cfg.pageCap.value) && Full(cfg, fetch(page))
               && save(s, fetch(page).items, db(page)).outcome.Pass?)
    ensures var r := SyncFrom(cfg, page, s, fetch, save, db, horizon);
            && |r.pages| <= 1
            && (r.pages == [] ==> r.outcome == Pass)
            && (|r.pages| == 1 && fetch(page).FetchFailed? ==> r.outcome == Fail(fetch(page).error))
            && (|r.pages| == 1 && fetch(page).Page? ==>
                  && r.outcome == save(s, fetch(page).items, db(page)).outcome
                  && (r.outcome.Pass? ==> !Full(cfg, fetch(page))))
  {
    SyncFromStops(cfg, page, s, fetch, save, db, horizon);
  }

  /** A turn of the loop that goes on: the sync from `page` ends as the sync
      from the next page does, one request later, and its last page is saved
      over the tables the same pages left. */
  lemma SyncFromShift<T>(cfg: Config, page: nat, s: Store, fetch: nat -> Fetched<T>,
                         save: (Store, seq<T>, BatchFaults) -> Saved, db: nat -> BatchFaults, horizon: nat)
    requires Ends(cfg, fetch, save, db, horizon) && (cfg.pageCap.None? ==> page <= horizon)
    requires !(cfg.pageCap.Some? && page > cfg.pageCap.value)
    requires Full(cfg, fetch(page)) && save(s, fetch(page).items, db(page)).outcome.Pass?
    ensures cfg.pageCap.None? ==> page + 1 <= horizon
    ensures var next := save(s, fetch(page).items, db(page)).store;
            var r := SyncFrom(cfg, page, s, fetch, save, db, horizon);
            var rest := SyncFrom(cfg, page + 1, next, fetch, save, db, horizon);
            && r.outcome == rest.outcome && |r.pages| == |rest.pages| + 1
            && (|rest.pages| > 0 ==>
                  SavedThrough(s, fetch, save, db, page, |r.pages| - 1)
                  == SavedThrough(next, fetch, save, db, page + 1, |rest.pages| - 1))
            && (|rest.pages| == 0 ==> r.outcome == Pass && cfg.pageCap.Some? && page == cfg.pageCap.value)
  {
    var next := save(s, fetch(page).items, db(page)).store;
    SyncFromStep(cfg, page, s, fetch, save, db, horizon);
    SyncFromStops(cfg, page + 1, next, fetch, save, db, horizon);
  }

  /** A failing sync requested at least one page: past the cap nothing is
      requested and nothing fails. */
  lemma FailedSyncRequested<T>(cfg: Config, page: nat, s: Store, fetch: nat -> Fetched<T>,
                               save: (Store, seq<T>, BatchFaults) -> Saved, db: nat -> BatchFaults,
                               horizon: nat)
    requires Ends(cfg, fetch, save, db, horizon)
    requires cfg.pageCap.None? ==> page <= horizon
    ensures SyncFrom(cfg, page, s, fetch, save, db, horizon).outcome.Fail? ==>
              |SyncFrom(cfg, page, s, fetch, save, db, horizon).pages| > 0
  {
    SyncFromStops(cfg, page, s, fetch, save, db, horizon);
  }

  /** A failing sync's last page is the one whose fetch or save failed:
      stated from `page` on with `s` as the tables before it. */
  ghost predicate FailsAtLast<T>(r: Synced, page: nat, s: Store, fetch: nat -> Fetched<T>,
                                 save: (Store, seq<T>, BatchFaults) -> Saved, db: nat -> BatchFaults) {
    var last := page + |r.pages| - 1;
    r.outcome.Fail? && |r.pages| > 0 ==>
      || fetch(last) == FetchFailed(r.outcome.error)
      || (&& fetch(last).Page?
          && save(SavedThrough(s, fetch, save, db, page, |r.pages| - 1), fetch(last).items, db(last)).outcome
             == r.outcome)
  }

  /** A turn of the loop that goes on keeps `FailsAtLast`. */
  lemma FailsAtLastShift<T>(cfg: Config, page: nat, s: Store, fetch: nat -> Fetched<T>,
                            save: (Store, seq<T>, BatchFaults) -> Saved, db: nat -> BatchFaults, horizon: nat)
    requires Ends(cfg, fetch, save, db, horizon) && (cfg.pageCap.None? ==> page <= horizon)
    requires !(cfg.pageCap.Some? && page > cfg.pageCap.value)
    requires Full(cfg, fetch(page)) && save(s, fetch(page).items, db(page)).outcome.Pass?
    requires cfg.pageCap.None? ==> page + 1 <= horizon
    requires var next := save(s, fetch(page).items, db(page)).store;
             FailsAtLast(SyncFrom(cfg, page + 1, next, fetch, save, db, horizon), page + 1, next, fetch, save, db)
    ensures FailsAtLast(SyncFrom(cfg, page, s, fetch, save, db, horizon), page, s, fetch, save, db)
  {
    var next := save(s, fetch(page).items, db(page)).store;
    SyncFromShift(cfg, page, s, fetch, save, db, horizon);
    var r := SyncFrom(cfg, page, s, fetch, save, db, horizon);
    var rest := SyncFrom(cfg, page + 1, next, fetch, save, db, horizon);
    if |rest.pages| > 0 {
      assert page + |r.pages| - 1 == page + 1 + |rest.pages| - 1;
    }
  }

  /** The last page of a failing sync is the one whose fetch or save
      failed. */
  lemma {:induction false} FailedSyncLast<T>(cfg: Config, page: nat, s: Store, fetch: nat -> Fetched<T>,
                                             save: (Store, seq<T>, BatchFaults) -> Saved, db: nat -> BatchFaults,
                                             horizon: nat)
    requires Ends(cfg, fetch, save, db, horizon)
    requires cfg.pageCap.None? ==> page <= horizon
    ensures FailsAtLast(SyncFrom(cfg, page, s, fetch, save, db, horizon), page, s, fetch, save, db)
    decreases PagesLeft(cfg, page, horizon)
  {
    if !(cfg.pageCap.Some? && page > cfg.pageCap.value) && Full(cfg, fetch(page))
       && save(s, fetch(page).items, db(page)).outcome.Pass? {
      var saved := save(s, fetch(page).items, db(page));
      SyncFromShift(cfg, page, s, fetch, save, db, horizon);
      FailedSyncLast(cfg, page + 1, saved.store, fetch, save, db, horizon);
      FailsAtLastShift(cfg, page, s, fetch, save, db, horizon);
    } else {
      assert SavedThrough(s, fetch, save, db, page, 0) == s;
      SyncFromLastTurn(cfg, page, s, fetch, save, db, horizon);
    }
  }

  /** Why a failing sync stopped: it returns the error of its last page,
      either the fetch's or that of saving the fetched page over what the
      earlier pages left. */
  lemma {:induction false} FailedSyncCause<T>(cfg: Config, page: nat, s: Store, fetch: nat -> Fetched<T>,
                                              save: (Store, seq<T>, BatchFaults) -> Saved, db: nat -> BatchFaults,
                                              horizon: nat)
    requires Ends(cfg, fetch, save, db, horizon)
    requires cfg.pageCap.None? ==> page <= horizon
    ensures var r := SyncFrom(cfg, page, s, fetch, save, db, horizon);
            var last := page + |r.pages| - 1;
            r.outcome.Fail? ==>
              && |r.pages| > 0
              && (|| fetch(last) == FetchFailed(r.outcome.error)
                  || (&& fetch(last).Page?
                      && save(SavedThrough(s, fetch, save, db, page, |r.pages| - 1), fetch(last).items, db(last)).outcome
                         == r.outcome))
  {
    FailedSyncRequested(cfg, page, s, fetch, save, db, horizon);
    FailedSyncLast(cfg, page, s, fetch, save, db, horizon);
  }

  /** A succeeding sync's last page was fetched and saved without error, and
      was short or was the capped last page: stated from `page` on with `s`
      as the tables before it. */
  ghost predicate PassesAtLast<T>(cfg: Config, r: Synced, page: nat, s: Store, fetch: nat -> Fetched<T>,
                                  save: (Store, seq<T>, BatchFaults) -> Saved, db: nat -> BatchFaults) {
    var last := page + |r.pages| - 1;
    r.outcome.Pass? && |r.pages| > 0 ==>
      && fetch(last).Page?
      && save(SavedThrough(s, fetch, save, db, page, |r.pages| - 1), fetch(last).items, db(last)).outcome.Pass?
      && (!Full(cfg, fetch(last)) || (cfg.pageCap.Some? && last == cfg.pageCap.value))
  }

  /** A turn of the loop that goes on keeps `PassesAtLast`. */
  lemma PassesAtLastShift<T>(cfg: Config, page: nat, s: Store, fetch: nat -> Fetched<T>,
                             save: (Store, seq<T>, BatchFaults) -> Saved, db: nat -> BatchFaults, horizon: nat)
    requires Ends(cfg, fetch, save, db, horizon) && (cfg.pageCap.None? ==> page <= horizon)
    requires !(cfg.pageCap.Some? && page > cfg.pageCap.value)
    requires Full(cfg, fetch(page)) && save(s, fetch(page).items, db(page)).outcome.Pass?
    requires cfg.pageCap.None? ==> page + 1 <= horizon
    requires var next := save(s, fetch(page).items, db(page)).store;
             PassesAtLast(cfg, SyncFrom(cfg, page + 1, next, fetch, save, db, horizon), page + 1, next, fetch, save, db)
    ensures PassesAtLast(cfg, SyncFrom(cfg, page, s, fetch, save, db, horizon), page, s, fetch, save, db)
  {
    var next := save(s, fetch(page).items, db(page)).store;
    SyncFromShift(cfg, page, s, fetch, save, db, horizon);
    var r := SyncFrom(cfg, page, s, fetch, save, db, horizon);
    var rest := SyncFrom(cfg, page + 1, next, fetch, save, db, horizon);
    if |rest.pages| > 0 {
      assert page + |r.pages| - 1 == page + 1 + |rest.pages| - 1;
    } else {
      assert SavedThrough(s, fetch, save, db, page, 0) == s;
    }
  }

  /** The last page of a succeeding sync was fetched and saved without
      error, and was short or was the capped last page. */
  lemma {:induction false} PassedSyncLast<T>(cfg: Config, page: nat, s: Store, fetch: nat -> Fetched<T>,
                                             save: (Store, seq<T>, BatchFaults) -> Saved, db: nat -> BatchFaults,
                                             horizon: nat)
    requires Ends(cfg, fetch, save, db, horizon)
    requires cfg.pageCap.None? ==> page <= horizon
    ensures PassesAtLast(cfg, SyncFrom(cfg, page, s, fetch, save, db, horizon), page, s, fetch, save, db)
    decreases PagesLeft(cfg, page, horizon)
  {
    if !(cfg.pageCap.Some? && page > cfg.pageCap.value) && Full(cfg, fetch(page))
       && save(s, fetch(page).items, db(page)).outcome.Pass? {
      var saved := save(s, fetch(page).items, db(page));
      SyncFromShift(cfg, page, s, fetch, save, db, horizon);
      PassedSyncLast(cfg, page + 1, saved.store, fetch, save, db, horizon);
      PassesAtLastShift(cfg, page, s, fetch, save, db, horizon);
    } else {
      assert SavedThrough(s, fetch, save, db, page, 0) == s;
      SyncFromLastTurn(cfg, page, s, fetch, save, db, horizon);
    }
  }

  /** Why a succeeding sync stopped: its last page was fetched and saved
      without error, and was short or was the capped last page. */
  lemma {:induction false} PassedSyncCause<T>(cfg: Config, page: nat, s: Store, fetch: nat -> Fetched<T>,
                                              save: (Store, seq<T>, BatchFaults) -> Saved, db: nat -> BatchFaults,
                                              horizon: nat)
    requires Ends(cfg, fetch, save, db, horizon)
    requires cfg.pageCap.None? ==> page <= horizon
    ensures var r := SyncFrom(cfg, page, s, fetch, save, db, horizon);
            var last := page + |r.pages| - 1;
            r.outcome.Pass? && |r.pages| > 0 ==>
              && fetch(last).Page?
              && save(SavedThrough(s, fetch, save, db, page, |r.pages| - 1), fetch(last).items, db(last)).outcome.Pass?
              && (!Full(cfg, fetch(last)) || (cfg.pageCap.Some? && last == cfg.pageCap.value))
  {
    PassedSyncLast(cfg, page, s, fetch, save, db, horizon);
  }

  /** One turn of the loop: a full page that saves without error is followed
      by a request for the next page, from the tables that save left. */
  lemma SyncFromStep<T>(cfg: Config, page: nat, s: Store, fetch: nat -> Fetched<T>,
                        save: (Store, seq<T>, BatchFaults) -> Saved, db: nat -> BatchFaults, horizon: nat)
    requires Ends(cfg, fetch, save, db, horizon) && (cfg.pageCap.None? ==> page <= horizon)
    requires cfg.pageCap.Some? ==> page <= cfg.pageCap.value
    requires Full(cfg, fetch(page)) && save(s, fetch(page).items, db(page)).outcome.Pass?
    ensures cfg.pageCap.None? ==> page < horizon
    ensures var rest := SyncFrom(cfg, page + 1, save(s, fetch(page).items, db(page)).store, fetch, save, db, horizon);
            SyncFrom(cfg, page, s, fetch, save, db, horizon) == Synced(rest.store, rest.outcome, [page] + rest.pages)
  {
  }

  /** A short page that saves without error ends the loop with OK. */
  lemma ShortPageEndsSync<T>(cfg: Config, page: nat, s: Store, fetch: nat -> Fetched<T>,
                             save: (Store, seq<T>, BatchFaults) -> Saved, db: nat -> BatchFaults, horizon: nat)
    requires Ends(cfg, fetch, save, db, horizon) && (cfg.pageCap.None? ==> page <= horizon)
    requires cfg.pageCap.Some? ==> page <= cfg.pageCap.value
    requires fetch(page).Page? && |fetch(page).items| < cfg.perPage
    requires save(s, fetch(page).items, db(page)).outcome.Pass?
    ensures var r := SyncFrom(cfg, page, s, fetch, save, db, horizon);
            r.outcome == Pass && |r.pages| == 1
  {
  }

  /** A failed fetch ends the loop with that error and changes nothing. */
  lemma FetchFailureEndsSync<T>(cfg: Config, page: nat, s: Store, fetch: nat -> Fetched<T>,
                                save: (Store, seq<T>, BatchFaults) -> Saved, db: nat -> BatchFaults, horizon: nat)
    requires Ends(cfg, fetch, save, db, horizon) && (cfg.pageCap.None? ==> page <= horizon)
    requires cfg.pageCap.Some? ==> page <= cfg.pageCap.value
    requires fetch(page).FetchFailed?
    ensures var r := SyncFrom(cfg, page, s, fetch, save, db, horizon);
            r.outcome == Fail(fetch(page).error) && |r.pages| == 1 && r.store == s
  {
  }

  /** Saving page `p`, if it was fetched, succeeds whatever the tables hold. */
  ghost predicate SavesCleanly<T>(fetch: nat -> Fetched<T>, save: (Store, seq<T>, BatchFaults) -> Saved,
                                  db: nat -> BatchFaults, p: nat) {
    forall st: Store :: fetch(p).Page? ==> save(st, fetch(p).items, db(p)).outcome.Pass?
  }

  /** Full pages from `page` up to `k`, then a short page `k`, all saving
      without error: the sync requests exactly pages `page..k` and succeeds. */
  lemma {:induction false} ShortPageStopsSync<T>(cfg: Config, page: nat, k: nat, s: Store, fetch: nat -> Fetched<T>,
                                                 save: (Store, seq<T>, BatchFaults) -> Saved,
                                                 db: nat -> BatchFaults, horizon: nat)
    requires Ends(cfg, fetch, save, db, horizon) && (cfg.pageCap.None? ==> page <= horizon)
    requires page <= k && (cfg.pageCap.Some? ==> k <= cfg.pageCap.value)
    requires forall p :: page <= p < k ==> Full(cfg, fetch(p))
    requires fetch(k).Page? && |fetch(k).items| < cfg.perPage
    requires forall p :: page <= p <= k ==> SavesCleanly(fetch, save, db, p)
    ensures var r := SyncFrom(cfg, page, s, fetch, save, db, horizon);
            && r.outcome == Pass
            && |r.pages| == k - page + 1
    decreases k - page
  {
    if page < k {
      var saved := save(s, fetch(page).items, db(page));
      assert SavesCleanly(fetch, save, db, page);
      SyncFromStep(cfg, page, s, fetch, save, db, horizon);
      ShortPageStopsSync(cfg, page + 1, k, saved.store, fetch, save, db, horizon);
    } else {
      assert SavesCleanly(fetch, save, db, page);
      ShortPageEndsSync(cfg, page, s, fetch, save, db, horizon);
    }
  }

  /** Pages of 100, 100 and 37 repositories take exactly three fetches. */
  lemma ShortThirdPageEndsSync(s: Store, fetch: nat -> Fetched<Repo>, db: nat -> BatchFaults)
    requires PageOf(fetch(1), 100) && PageOf(fetch(2), 100) && PageOf(fetch(3), 37)
    requires Prepares(db, 1) && Prepares(db, 2) && Prepares(db, 3)
    ensures var r := SyncRepos(PRODUCTION, s, fetch, db, 3);
            r.pages == [1, 2, 3] && r.outcome == Pass
  {
    ShortPageStopsSync(PRODUCTION, 1, 3, s, fetch, SaveMyRepos, db, 3);
  }

  /** Pages of 100, 100, 100 and then none take exactly four fetches. */
  lemma EmptyFourthPageEndsSync(s: Store, fetch: nat -> Fetched<Repo>, db: nat -> BatchFaults)
    requires PageOf(fetch(1), 100) && PageOf(fetch(2), 100) && PageOf(fetch(3), 100) && PageOf(fetch(4), 0)
    requires Prepares(db, 1) && Prepares(db, 2) && Prepares(db, 3) && Prepares(db, 4)
    ensures var r := SyncRepos(PRODUCTION, s, fetch, db, 4);
            r.pages == [1, 2, 3, 4] && r.outcome == Pass
  {
    ShortPageStopsSync(PRODUCTION, 1, 4, s, fetch, SaveMyRepos, db, 4);
  }

  /** A 204 or 304 answer on the first page is an empty page: the sync makes
      one fetch and succeeds without saving a repository. */
  lemma NoContentEndsSync(s: Store, e: Exchange, fetch: nat -> Fetched<Repo>, db: nat -> BatchFaults)
    requires NoContent(e) && fetch(1) == FetchReposPage(e)
    requires Prepares(db, 1)
    ensures var r := SyncRepos(PRODUCTION, s, fetch, db, 1);
            r.pages == [1] && r.outcome == Pass && r.store.repos == s.repos
  {
  }

  /** A rate-limited or otherwise refused first page (status 403 with GitHub's
      error object) ends the repository sync after one request with OK and no
      repository saved. */
  lemma RefusedFirstPageSyncsNothing(s: Store, members: map<string, Json>, fetch: nat -> Fetched<Repo>,
                                     db: nat -> BatchFaults)
    requires fetch(1) == FetchReposPage(Completed(403, Parsed(JObject(members))))
    requires Prepares(db, 1)
    ensures var r := SyncRepos(PRODUCTION, s, fetch, db, 1);
            r.pages == [1] && r.outcome == Pass && r.store.repos == s.repos
  {
    ErrorObjectIsEmptyPage(members);
  }

  /** A fetch error at page `k`, after full pages that saved without error, is
      returned unchanged; pages before `k` stay saved and nothing after `k` is
      requested. */
  lemma {:induction false} FetchErrorStopsSync<T>(cfg: Config, page: nat, k: nat, s: Store, fetch: nat -> Fetched<T>,
                                                  save: (Store, seq<T>, BatchFaults) -> Saved,
                                                  db: nat -> BatchFaults, horizon: nat)
    requires Ends(cfg, fetch, save, db, horizon) && (cfg.pageCap.None? ==> page <= horizon)
    requires page <= k && (cfg.pageCap.Some? ==> k <= cfg.pageCap.value)
    requires forall p :: page <= p < k ==> Full(cfg, fetch(p))
    requires forall p :: page <= p < k ==> SavesCleanly(fetch, save, db, p)
    requires fetch(k).FetchFailed?
    ensures var r := SyncFrom(cfg, page, s, fetch, save, db, horizon);
            && r.outcome == Fail(fetch(k).error)
            && |r.pages| == k - page + 1
            && r.store == SavedThrough(s, fetch, save, db, page, k - page)
    decreases k - page
  {
    if page < k {
      var saved := save(s, fetch(page).items, db(page));
      assert SavesCleanly(fetch, save, db, page);
      SyncFromStep(cfg, page, s, fetch, save, db, horizon);
      FetchErrorStopsSync(cfg, page + 1, k, saved.store, fetch, save, db, horizon);
      assert SavedThrough(s, fetch, save, db, page, k - page)
          == SavedThrough(saved.store, fetch, save, db, page + 1, k - page - 1);
    } else {
      FetchFailureEndsSync(cfg, page, s, fetch, save, db, horizon);
    }
  }

  /** A save error at page `k`, after full pages that saved without error, is
      returned unchanged with the tables that failing save left: pages before
      `k` stay saved and nothing after `k` is requested. */
  lemma {:induction false} SaveErrorStopsSync<T>(cfg: Config, page: nat, k: nat, s: Store, fetch: nat -> Fetched<T>,
                                                 save: (Store, seq<T>, BatchFaults) -> Saved,
                                                 db: nat -> BatchFaults, horizon: nat)
    requires Ends(cfg, fetch, save, db, horizon) && (cfg.pageCap.None? ==> page <= horizon)
    requires page <= k && (cfg.pageCap.Some? ==> k <= cfg.pageCap.value)
    requires forall p :: page <= p < k ==> Full(cfg, fetch(p))
    requires forall p :: page <= p < k ==> SavesCleanly(fetch, save, db, p)
    requires fetch(k).Page?
    requires save(SavedThrough(s, fetch, save, db, page, k - page), fetch(k).items, db(k)).outcome.Fail?
    ensures var r := SyncFrom(cfg, page, s, fetch, save, db, horizon);
            var failed := save(SavedThrough(s, fetch, save, db, page, k - page), fetch(k).items, db(k));
            && r.outcome == failed.outcome
            && |r.pages| == k - page + 1
            && r.store == failed.store
    decreases k - page
  {
    if page < k {
      var saved := save(s, fetch(page).items, db(page));
      assert SavesCleanly(fetch, save, db, page);
      SyncFromStep(cfg, page, s, fetch, save, db, horizon);
      assert SavedThrough(s, fetch, save, db, page, k - page)
          == SavedThrough(saved.store, fetch, save, db, page + 1, k - page - 1);
      SaveErrorStopsSync(cfg, page + 1, k, saved.store, fetch, save, db, horizon);
    } else {
      assert SavedThrough(s, fetch, save, db, page, 0) == s;
    }
  }

  /** A server that serves nothing but full pages still sees the sync end: at
      the first page whose marker statement does not prepare, with that
      statement's error, after requesting exactly that many pages. */
  lemma FullPagesStopAtPrepareFailure(s: Store, fetch: nat -> Fetched<Repo>, db: nat -> BatchFaults, k: nat)
    requires 1 <= k
    requires forall p :: 1 <= p <= k ==> Full(PRODUCTION, fetch(p))
    requires forall p :: 1 <= p < k ==> Prepares(db, p)
    requires db(k).repoUpsert.prepareOk && !db(k).marker.prepareOk
    ensures Ends(PRODUCTION, fetch, SaveMyRepos, db, k)
    ensures var r := SyncRepos(PRODUCTION, s, fetch, db, k);
            r.outcome == PrepareFailed(db(k).marker) && |r.pages| == k
  {
    forall p | 1 <= p < k ensures SavesCleanly(fetch, SaveMyRepos, db, p) {
      forall st: Store ensures SaveMyRepos(st, fetch(p).items, db(p)).outcome.Pass? {
        assert Prepares(db, p);
      }
    }
    forall st: Store ensures SaveMyRepos(st, fetch(k).items, db(k)).outcome.Fail? {
    }
    SaveErrorStopsSync(PRODUCTION, 1, k, s, fetch, SaveMyRepos, db, k);
  }

  /** In the test build at most two pages are requested. */
  lemma TestBuildFetchesAtMostTwoPages(s: Store, fetch: nat -> Fetched<Repo>, db: nat -> BatchFaults)
    ensures |SyncRepos(TESTING, s, fetch, db, 1).pages| <= 2
  {
  }
}

=== FILE: query_builder.dfy ===
/**
  `prepare_query_sql`: the SELECT over the repository view or the star view,
  with an optional keyword filter, an optional language filter and the
  ordering, composed in a buffer of `SQL_DEFAULT_LEN` characters with a
  length check after each append. The `sprintf(sql, "%s...", sql, ...)`
  appends are modelled as the concatenation they are meant to perform.
  Each character of a keyword or language stands for one byte of its UTF-8
  text, so the length of a string here is the `strlen` the code measures.
 */
module QueryBuilder {
  import opened OmgTypes

  /** The size of the buffer the query is composed in. */
  const SQL_DEFAULT_LEN: nat := 512

  /** Which view is queried: `is_star` false or true. */
  datatype View = RepoView | StarView

  /** The column list shared by both views, up to the table name. */
  const COLUMNS: string :=
    ",id,full_name,description,private,datetime(created_at, 'localtime'),license,"
    + "datetime(pushed_at, 'localtime'),stargazers_count,watchers_count,forks_count,lang,homepage,`size` from "

  /** The first column of the star view: the local star time. */
  const STAR_FIRST_COLUMN: string := "datetime(starred_at, 'localtime') as starred_at"

  /** The first column: a placeholder `1` for repositories, the star time for stars. */
  function FirstColumn(v: View): string {
    if v.RepoView? then "1" else STAR_FIRST_COLUMN
  }

  function TableName(v: View): string {
    if v.RepoView? then "omg_my_repo_view" else "omg_my_star_view"
  }

  /** Repositories are listed newest first by creation, stars by star time. */
  function SortColumn(v: View): string {
    if v.RepoView? then "created_at" else "starred_at"
  }

  /** The select the builder starts from; `where 1` lets every filter begin with `and`. */
  function BaseSelect(v: View): string {
    "select " + FirstColumn(v) + COLUMNS + TableName(v) + " where 1"
  }

  const NAME_LIKE: string := " and (full_name like '%"
  const DESCRIPTION_LIKE: string := "%' COLLATE NOCASE or description like '%"
  const LIKE_END: string := "%' COLLATE NOCASE)"

  /** The keyword filter: a case-insensitive substring match on name or description. */
  function KeywordClause(keyword: string): string {
    NAME_LIKE + keyword + DESCRIPTION_LIKE + keyword + LIKE_END
  }

  const LANG_IS: string := " and lang='"
  const NOCASE_END: string := "' COLLATE NOCASE"

  /** The language filter: a case-insensitive match on the language. */
  function LanguageClause(language: string): string {
    LANG_IS + language + NOCASE_END
  }

  function OrderByClause(v: View): string {
    " order by " + SortColumn(v) + " desc"
  }

  /** A filter argument contributes its clause only when it is not `empty_string`. */
  function KeywordPart(keyword: Str): string {
    if EmptyString(keyword) then [] else KeywordClause(keyword.value)
  }

  function LanguagePart(language: Str): string {
    if EmptyString(language) then [] else LanguageClause(language.value)
  }

  /** The whole query the builder means to produce, regardless of buffer size. */
  function FullQuery(v: View, keyword: Str, language: Str): string {
    BaseSelect(v) + KeywordPart(keyword) + LanguagePart(language) + OrderByClause(v)
  }

  const KEYWORD_OVERFLOW: string := "buffer not enough when append keyword"
  const LANGUAGE_OVERFLOW: string := "buffer not enough when append language"
  const ORDER_BY_OVERFLOW: string := "buffer not enough when append order_by"

  /** The composed query, and the largest number of characters any single
      `sprintf` stored into the buffer, terminating NUL included. */
  datatype Built = Built(sql: Result<string>, peak: nat)

  /** The appends as written, over any base select and ordering: each
      `sprintf` writes first, and the append is refused afterwards when the
      length it reports exceeds `SQL_DEFAULT_LEN`. */
  function Compose(base: string, keyword: Str, language: Str, orderBy: string): (b: Built)
    ensures var full := base + KeywordPart(keyword) + LanguagePart(language) + orderBy;
            && (b.sql.Success? <==> |full| <= SQL_DEFAULT_LEN)
            && (b.sql.Success? ==> b.sql.value == full && b.peak == |full| + 1)
    ensures !EmptyString(keyword) && |base + KeywordClause(keyword.value)| > SQL_DEFAULT_LEN
            ==> b.sql == Failure(Error(CodeInternal, KEYWORD_OVERFLOW))
    ensures && |base + KeywordPart(keyword)| <= SQL_DEFAULT_LEN
            && !EmptyString(language)
            && |base + KeywordPart(keyword) + LanguageClause(language.value)| > SQL_DEFAULT_LEN
            ==> b.sql == Failure(Error(CodeInternal, LANGUAGE_OVERFLOW))
    ensures && |base + KeywordPart(keyword) + LanguagePart(language)| <= SQL_DEFAULT_LEN
            && |base + KeywordPart(keyword) + LanguagePart(language) + orderBy| > SQL_DEFAULT_LEN
            ==> b.sql == Failure(Error(CodeInternal, ORDER_BY_OVERFLOW))
    ensures b.sql.Failure? ==> b.sql.error.code == CodeInternal && b.peak > SQL_DEFAULT_LEN + 1
  {
    var withKeyword := base + KeywordPart(keyword);
    if !EmptyString(keyword) && |withKeyword| > SQL_DEFAULT_LEN then
      Built(Failure(Error(CodeInternal, KEYWORD_OVERFLOW)), |withKeyword| + 1)
    else
      var withLanguage := withKeyword + LanguagePart(language);
      if !EmptyString(language) && |withLanguage| > SQL_DEFAULT_LEN then
        Built(Failure(Error(CodeInternal, LANGUAGE_OVERFLOW)), |withLanguage| + 1)
      else
        var full := withLanguage + orderBy;
        if |full| > SQL_DEFAULT_LEN then Built(Failure(Error(CodeInternal, ORDER_BY_OVERFLOW)), |full| + 1)
        else Built(Success(full), |full| + 1)
  }

  /** The query composition of `prepare_query_sql`, as written. */
  function BuildQuery(v: View, keyword: Str, language: Str): (b: Built)
    ensures b.sql.Success? <==> |FullQuery(v, keyword, language)| <= SQL_DEFAULT_LEN
    ensures b.sql.Success? ==> b.sql.value == FullQuery(v, keyword, language)
    ensures b.sql.Failure? ==> b.sql.error.code == CodeInternal && b.peak > SQL_DEFAULT_LEN + 1
  {
    Compose(BaseSelect(v), keyword, language, OrderByClause(v))
  }

  /** The appends as evidently intended: each one is checked before it is
      written, and made only when the text and its terminator fit. */
  function ComposeBounded(base: string, keyword: Str, language: Str, orderBy: string): (b: Built)
    requires |base| < SQL_DEFAULT_LEN
    ensures var full := base + KeywordPart(keyword) + LanguagePart(language) + orderBy;
            && (b.sql.Success? <==> |full| < SQL_DEFAULT_LEN)
            && (b.sql.Success? ==> b.sql.value == full && b.peak == |full| + 1)
    ensures b.sql.Failure? ==> b.sql.error.code == CodeInternal
    ensures b.peak <= SQL_DEFAULT_LEN
  {
    var withKeyword := base + KeywordPart(keyword);
    var withLanguage := withKeyword + LanguagePart(language);
    var full := withLanguage + orderBy;
    assert |withKeyword| <= |withLanguage| <= |full|;
    if |withKeyword| >= SQL_DEFAULT_LEN then
      Built(Failure(Error(CodeInternal, KEYWORD_OVERFLOW)), |base| + 1)
    else if |withLanguage| >= SQL_DEFAULT_LEN then
      Built(Failure(Error(CodeInternal, LANGUAGE_OVERFLOW)), |withKeyword| + 1)
    else if |full| >= SQL_DEFAULT_LEN then
      Built(Failure(Error(CodeInternal, ORDER_BY_OVERFLOW)), |withLanguage| + 1)
    else
      Built(Success(full), |full| + 1)
  }

  /** The query composition with the evidently intended checks: it never
      writes past the buffer, and succeeds exactly when the query and its
      terminator fit. */
  function BuildQueryBounded(v: View, keyword: Str, language: Str): (b: Built)
    ensures b.sql.Success? <==> |FullQuery(v, keyword, language)| < SQL_DEFAULT_LEN
    ensures b.sql.Success? ==> b.sql.value == FullQuery(v, keyword, language)
    ensures b.sql.Failure? ==> b.sql.error.code == CodeInternal
    ensures b.peak <= SQL_DEFAULT_LEN
  {
    FragmentLengths(v);
    ComposeBounded(BaseSelect(v), keyword, language, OrderByClause(v))
  }

  /** The fixed fragments: the base select is 211 characters for
      repositories and 257 for stars, the ordering 25 for either. */
  lemma FragmentLengths(v: View)
    ensures |BaseSelect(v)| == (if v.RepoView? then 211 else 257)
    ensures |OrderByClause(v)| == 25
  {
  }

  /** The keyword clause adds 81 characters and the keyword twice, the
      language clause 27 characters and the language once. */
  lemma ClauseLengths(keyword: string, language: string)
    ensures |KeywordClause(keyword)| == 81 + 2 * |keyword|
    ensures |LanguageClause(language)| == 27 + |language|
  {
  }

  /** The length of the whole query, fragment by fragment. */
  lemma QueryLength(v: View, keyword: Str, language: Str)
    ensures |FullQuery(v, keyword, language)|
            == (if v.RepoView? then 211 else 257)
               + (if EmptyString(keyword) then 0 else 81 + 2 * |keyword.value|)
               + (if EmptyString(language) then 0 else 27 + |language.value|)
               + 25
  {
    FragmentLengths(v);
    if !EmptyString(keyword) {
      ClauseLengths(keyword.value, "");
    }
    if !EmptyString(language) {
      ClauseLengths("", language.value);
    }
  }

  /** An empty string is treated like a missing argument: no clause, same
      result, whatever the base select and ordering. */
  lemma EmptyFiltersAreIgnored(base: string, keyword: Str, language: Str, orderBy: string)
    ensures Compose(base, Some(""), language, orderBy) == Compose(base, None, language, orderBy)
    ensures Compose(base, keyword, Some(""), orderBy) == Compose(base, keyword, None, orderBy)
  {
    assert KeywordPart(Some("")) == KeywordPart(None) == [];
    assert LanguagePart(Some("")) == LanguagePart(None) == [];
  }

  /** Without filters the query is the base select followed by the ordering. */
  lemma UnfilteredQuery(v: View)
    ensures BuildQuery(v, None, None).sql == Success(BaseSelect(v) + OrderByClause(v))
  {
    QueryLength(v, None, None);
    assert KeywordPart(None) == [] && LanguagePart(None) == [];
    assert BaseSelect(v) + KeywordPart(None) + LanguagePart(None) == BaseSelect(v);
    assert FullQuery(v, None, None) == BaseSelect(v) + OrderByClause(v);
  }

  /** A keyword longer than 110 characters overflows at the keyword append,
      whichever view is queried. */
  lemma LongKeywordRejected(v: View, keyword: string, language: Str)
    requires |keyword| > 110
    ensures BuildQuery(v, Some(keyword), language).sql == Failure(Error(CodeInternal, KEYWORD_OVERFLOW))
  {
    FragmentLengths(v);
    ClauseLengths(keyword, "");
  }

  /** With the keyword set, the query is the base select, then the keyword
      clause, and ends with the ordering. */
  lemma KeywordFilterFollowsBase(v: View, keyword: string, language: Str)
    requires |keyword| > 0 && BuildQuery(v, Some(keyword), language).sql.Success?
    ensures var sql := BuildQuery(v, Some(keyword), language).sql.value;
            && sql[..|BaseSelect(v)|] == BaseSelect(v)
            && sql[|BaseSelect(v)|..|BaseSelect(v)| + |KeywordClause(keyword)|] == KeywordClause(keyword)
            && sql[|sql| - |OrderByClause(v)|..] == OrderByClause(v)
  {
    ThreePartSlices(BaseSelect(v), KeywordClause(keyword), LanguagePart(language), OrderByClause(v));
  }

  /** Slicing a concatenation gives back its parts. */
  lemma ThreePartSlices(a: string, b: string, c: string, d: string)
    ensures var s := a + b + c + d;
            && s[..|a|] == a && s[|a|..|a| + |b|] == b && s[|s| - |d|..] == d
  {
    var s := a + b + c + d;
    assert s == a + (b + (c + d));
  }

  /** A 249-character language on the repository view gives a query of
      exactly 512 characters. The check lets it through, but `sprintf` has
      stored 513 characters, the terminator included, into the 512-character
      buffer. */
  lemma ExactFitOverflows(language: string)
    requires |language| == 249
    ensures var b := BuildQuery(RepoView, None, Some(language));
            && b.sql.Success? && |b.sql.value| == SQL_DEFAULT_LEN
            && b.peak == SQL_DEFAULT_LEN + 1
  {
    QueryLength(RepoView, None, Some(language));
  }

  /** Where the query fits with its terminator, the bounded builder produces
      what the builder as written produces. */
  lemma BoundedBuilderAgrees(v: View, keyword: Str, language: Str)
    requires |FullQuery(v, keyword, language)| < SQL_DEFAULT_LEN
    ensures BuildQueryBounded(v, keyword, language) == BuildQuery(v, keyword, language)
  {
  }

  /** `prepare_query_sql`: a composition error is returned before anything is
      prepared; otherwise the database compiles the query (`accepts`) or
      reports `errmsg`. */
  function PrepareQuery(v: View, keyword: Str, language: Str, accepts: string -> bool, errmsg: string): (r: Result<string>)
    ensures BuildQuery(v, keyword, language).sql.Failure? ==> r == BuildQuery(v, keyword, language).sql
    ensures r.Success? <==> |FullQuery(v, keyword, language)| <= SQL_DEFAULT_LEN && accepts(FullQuery(v, keyword, language))
    ensures r.Success? ==> r.value == FullQuery(v, keyword, language)
    ensures r.Failure? && r.error.code == CodeDb ==> r.error.message == errmsg
  {
    match BuildQuery(v, keyword, language).sql
    case Failure(e) => Failure(e)
    case Success(sql) => if accepts(sql) then Success(sql) else Failure(Error(CodeDb, errmsg))
  }
}

=== FILE: requests.dfy ===
/**
  `omg_request` with the transport and the JSON decoder replaced by what they
  return, the two page fetchers that map a listing response to records, and
  the error classification of `omg_whoami`.
 */
module Requests {
  import opened OmgTypes
  import opened JsonModel
  import opened Mappers
  import opened ResponseBuffer

  /** What the JSON decoder made of a response body. */
  datatype Decoded = Parsed(json: Json) | Malformed(text: string)

  /** What libcurl reports for one request: a transport failure with its
      message, or a completed exchange with its status code and decoded body. */
  datatype Exchange = CurlFailed(message: string) | Completed(responseCode: int, decoded: Decoded)

  /** 204 No Content and 304 Not Modified carry no document. */
  predicate NoContent(e: Exchange) {
    e.Completed? && (e.responseCode == 204 || e.responseCode == 304)
  }

  /** `omg_request`: a transport failure is a CURL error, 204 and 304 succeed
      without a document (the out-pointer stays NULL), a body that does not
      decode is a JSON error, anything else succeeds with the document. */
  function Request(e: Exchange): (r: Result<Node>)
    ensures r.Success? && r.value.None? <==> NoContent(e)
    ensures r.Failure? <==> e.CurlFailed? || (!NoContent(e) && e.decoded.Malformed?)
    ensures r.Failure? && e.CurlFailed? ==> r.error == Error(CodeCurl, e.message)
    ensures r.Failure? && e.Completed? ==> r.error == Error(CodeJson, e.decoded.text)
    ensures r.Success? && r.value.Some? ==> e.Completed? && e.decoded == Parsed(r.value.value)
  {
    match e
    case CurlFailed(msg) => Failure(Error(CodeCurl, msg))
    case Completed(code, decoded) =>
      if code == 204 || code == 304 then Success(None)
      else match decoded
        case Malformed(text) => Failure(Error(CodeJson, text))
        case Parsed(j) => Success(Some(j))
  }

  /** What `curl_easy_perform` reports once the transfer into the buffer has
      ended: a transfer `mem_cb` cut short fails with libcurl's write error,
      whose message is `writeError`; a complete one carries the status code
      and what the decoder made of the buffer read as a C string: the received
      body up to its first NUL when the buffer is terminated, and otherwise
      the allocation and whatever lies past it (`beyond`) up to a NUL. */
  function Transfer(out: Received, writeError: string, responseCode: int, beyond: string,
                    decode: string -> Decoded): (e: Exchange)
    requires Allocated(out.response)
    ensures e.CurlFailed? <==> out.aborted
    ensures e.CurlFailed? ==> e.message == writeError
    ensures e.Completed? ==> e.responseCode == responseCode
    ensures e.Completed? && Terminated(out.response) ==> e.decoded == decode(UpToNul(Body(out.response)))
    ensures e.Completed? && !Terminated(out.response) ==>
              e.decoded == decode(UpToNul(out.response.memory + beyond))
  {
    if out.aborted then CurlFailed(writeError)
    else Completed(responseCode, decode(CString(out.response, beyond)))
  }

  /** From a terminated initial buffer, a `realloc` failure in `mem_cb`
      surfaces from `omg_request` as a CURL error; a transfer that stored
      every chunk hands the decoder the chunks joined in arrival order, up to
      the first NUL among them, and succeeds exactly when that text decodes. */
  lemma ReceivedBodyReachesRequest(chunks: seq<string>, reallocOk: nat -> bool, writeError: string,
                                   responseCode: int, beyond: string, decode: string -> Decoded)
    ensures var out := Receive(EmptyResponse(), chunks, reallocOk);
            var res := Request(Transfer(out, writeError, responseCode, beyond, decode));
            && (out.aborted ==> !reallocOk(out.delivered) && res == Failure(Error(CodeCurl, writeError)))
            && (!out.aborted && responseCode != 204 && responseCode != 304 ==>
                  && (res.Success? <==> decode(UpToNul(Concat(chunks))).Parsed?)
                  && (res.Success? ==> res.value == Some(decode(UpToNul(Concat(chunks))).json)))
  {
    var out := Receive(EmptyResponse(), chunks, reallocOk);
    ReceivedBodyIsTerminated(chunks, reallocOk);
    if !out.aborted {
      assert chunks[..out.delivered] == chunks;
    } else {
      var o := ReceiveFrom(EmptyResponse(), chunks, reallocOk, 0);
      assert out == o;
    }
  }

  /** As written, an empty 200 body leaves the `malloc(1)` buffer without a
      NUL, so unless its one uninitialised byte happens to be NUL the decoder
      is not given the empty text: it reads that stray character and runs on
      past the allocation up to the next NUL. */
  lemma EmptyBodyDecodesPastBuffer(unspecified: char, reallocOk: nat -> bool, writeError: string,
                                   beyond: string, decode: string -> Decoded)
    ensures var out := Receive(AllocateResponse(unspecified), [], reallocOk);
            var e := Transfer(out, writeError, 200, beyond, decode);
            && (unspecified != '\0' ==> e == Completed(200, decode([unspecified] + UpToNul(beyond))))
            && (unspecified == '\0' ==> e == Completed(200, decode("")))
  {
    EmptyTransferLeavesBufferUnterminated(unspecified, reallocOk);
    if unspecified != '\0' {
      UpToNulReadsOn([unspecified], beyond);
    }
  }

  /** A body carrying a NUL is decoded only up to it: `{}` followed by a NUL
      and more text is decoded as `{}`. */
  lemma EmbeddedNulEndsDecodedText(rest: string, reallocOk: nat -> bool, writeError: string,
                                   beyond: string, decode: string -> Decoded)
    requires reallocOk(0)
    ensures var out := Receive(EmptyResponse(), ["{}" + ['\0'] + rest], reallocOk);
            Transfer(out, writeError, 200, beyond, decode) == Completed(200, decode("{}"))
  {
    var chunks := ["{}" + ['\0'] + rest];
    var out := Receive(EmptyResponse(), chunks, reallocOk);
    ReceivedBodyIsTerminated(chunks, reallocOk);
    assert chunks[..out.delivered] == chunks;
    assert Concat(chunks) == "{}" + ['\0'] + rest;
    UpToNulStopsAtNul("{}", rest);
    NulFreeReadsWhole("{}");
  }

  /** One page of a listing: the request's error, or the mapped elements. */
  datatype Fetched<+T> = FetchFailed(error: Error) | Page(items: seq<T>)

  /** Every element of a successful listing response satisfies `shaped`. */
  ghost predicate ElementsShaped(e: Exchange, shaped: Node -> bool) {
    var r := Request(e);
    r.Success? ==> forall i :: 0 <= i < ArraySize(r.value) ==> shaped(ArrayGet(r.value, i))
  }

  /** `fetch_repos_by_page` after the request: `json_array_size` of the
      document (0 for a missing document or a non-array) elements, each
      mapped by `repo_from_json`. */
  function FetchReposPage(e: Exchange): (f: Fetched<Repo>)
    requires ElementsShaped(e, RepoShaped)
    ensures Request(e).Failure? <==> f.FetchFailed?
    ensures f.FetchFailed? ==> f.error == Request(e).error
    ensures f.Page? ==> && |f.items| == ArraySize(Request(e).value)
                        && forall i :: 0 <= i < |f.items| ==>
                             RepoMatchesJson(f.items[i], ArrayGet(Request(e).value, i))
    ensures NoContent(e) ==> f == Page([])
  {
    match Request(e)
    case Failure(err) => FetchFailed(err)
    case Success(doc) =>
      Page(seq(ArraySize(doc), i requires 0 <= i < ArraySize(doc) => RepoFromJson(ArrayGet(doc, i))))
  }

  /** `fetch_stars_by_page` after the request: each element becomes a star. */
  function FetchStarsPage(e: Exchange): (f: Fetched<Star>)
    requires ElementsShaped(e, StarShaped)
    ensures Request(e).Failure? <==> f.FetchFailed?
    ensures f.FetchFailed? ==> f.error == Request(e).error
    ensures f.Page? ==> && |f.items| == ArraySize(Request(e).value)
                        && forall i :: 0 <= i < |f.items| ==>
                             && RepoMatchesJson(f.items[i].repo, ObjectGet(ArrayGet(Request(e).value, i), "repo"))
                             && MapsString(ArrayGet(Request(e).value, i), "starred_at", f.items[i].starredAt)
    ensures NoContent(e) ==> f == Page([])
  {
    match Request(e)
    case Failure(err) => FetchFailed(err)
    case Success(doc) =>
      Page(seq(ArraySize(doc), i requires 0 <= i < ArraySize(doc) => StarFromJson(ArrayGet(doc, i))))
  }

  /** An error status is not examined: a 403 whose body is GitHub's error
      object (`{"message": "API rate limit exceeded"}`, say) is a successful
      request, and since `json_array_size` of an object is 0 the page is
      empty. */
  lemma ErrorObjectIsEmptyPage(members: map<string, Json>)
    ensures FetchReposPage(Completed(403, Parsed(JObject(members)))) == Page([])
    ensures Request(Completed(403, Parsed(JObject(members)))) == Success(Some(JObject(members)))
  {
  }

  const USER_NOT_FOUND: string := "User Not Found"
  const AUTH_FAILED: string := "GitHub PAT authentication failed"

  /** What `omg_whoami` needs of a successful response: a `message` member must
      be a string (it goes to `strcmp`), and without one the document must be
      a profile. */
  predicate WhoamiShaped(e: Exchange) {
    var r := Request(e);
    r.Success? ==>
      var msg := ObjectGet(r.value, "message");
      if msg.Some? then msg.value.JString? else UserShaped(r.value)
  }

  /** `omg_whoami` after the request: a request error is returned unchanged; a
      document with a `message` member is a GitHub error, "User Not Found" for
      the message "Not Found" and an authentication failure for any other
      message; otherwise the profile is mapped. */
  function Whoami(e: Exchange): (r: Result<User>)
    requires WhoamiShaped(e)
    ensures Request(e).Failure? ==> r == Failure(Request(e).error)
    ensures Request(e).Success? && ObjectGet(Request(e).value, "message") == Some(JString("Not Found"))
            ==> r == Failure(Error(CodeGithub, USER_NOT_FOUND))
    ensures Request(e).Success? && ObjectGet(Request(e).value, "message").Some?
            && ObjectGet(Request(e).value, "message") != Some(JString("Not Found"))
            ==> r == Failure(Error(CodeGithub, AUTH_FAILED))
    ensures r.Success? <==> Request(e).Success? && ObjectGet(Request(e).value, "message").None?
    ensures r.Success? ==> UserMatchesJson(r.value, Request(e).value)
    ensures r.Success? ==> r.value.diskUsage == IntegerOrDefault(Request(e).value, "disk_usage")
  {
    match Request(e)
    case Failure(err) => Failure(err)
    case Success(doc) =>
      var msg := ObjectGet(doc, "message");
      if msg.Some? then
        if StringValue(msg) == Some("Not Found") then Failure(Error(CodeGithub, USER_NOT_FOUND))
        else Failure(Error(CodeGithub, AUTH_FAILED))
      else Success(UserFromJson(doc))
  }
}

=== FILE: response_buffer.dfy ===
/**
  The response buffer that libcurl's write callback `mem_cb` fills: an
  allocation of `size + 1` characters whose first `size` characters are the
  body received so far.
 */
module ResponseBuffer {

  /** `response`: `memory` is the whole allocation, `size` the body length. */
  datatype Response = Response(memory: seq<char>, size: nat)

  /** The allocation holds the body and one more character for the terminator. */
  predicate Allocated(r: Response) {
    |r.memory| == r.size + 1
  }

  /** The body is followed by a NUL, so it can be read as a C string. */
  predicate Terminated(r: Response) {
    Allocated(r) && r.memory[r.size] == '\0'
  }

  /** The characters received so far. */
  function Body(r: Response): string
    requires Allocated(r)
  {
    r.memory[..r.size]
  }

  /** What one callback leaves behind, and the count it reports to libcurl. */
  datatype Written = Written(response: Response, returned: nat)

  /** `mem_cb`: grow the allocation by the chunk (the `realloc` succeeds when
      `reallocOk`), copy the chunk after the body, terminate, and report the
      chunk's size; on a failed `realloc` report 0 and change nothing. */
  function MemCb(r: Response, chunk: string, reallocOk: bool): (w: Written)
    requires Allocated(r)
    ensures Allocated(w.response)
    ensures reallocOk ==> && w.returned == |chunk|
                          && w.response.size == r.size + |chunk|
                          && Body(w.response) == Body(r) + chunk
                          && Terminated(w.response)
    ensures !reallocOk ==> w.returned == 0 && w.response == r
  {
    if !reallocOk then Written(r, 0)
    else Written(Response(r.memory[..r.size] + chunk + ['\0'], r.size + |chunk|), |chunk|)
  }

  /** The chunks delivered so far, joined in arrival order. */
  function Concat(chunks: seq<string>): string {
    if |chunks| == 0 then [] else chunks[0] + Concat(chunks[1..])
  }

  /** Joining a chunk in front of others. */
  lemma ConcatCons(first: string, rest: seq<string>)
    ensures Concat([first] + rest) == first + Concat(rest)
  {
    assert ([first] + rest)[1..] == rest;
  }

  /** The text before the first NUL of `s`: what a C-string reader of `s`
      sees. */
  function UpToNul(s: string): (p: string)
    ensures |p| <= |s| && p == s[..|p|]
    ensures '\0' !in p
    ensures |p| < |s| ==> s[|p|] == '\0'
  {
    if |s| == 0 || s[0] == '\0' then []
    else [s[0]] + UpToNul(s[1..])
  }

  /** Text without a NUL is read whole. */
  lemma {:induction false} NulFreeReadsWhole(s: string)
    requires '\0' !in s
    ensures UpToNul(s) == s
  {
    if |s| > 0 {
      assert s[0] != '\0' && '\0' !in s[1..];
      NulFreeReadsWhole(s[1..]);
      assert [s[0]] + s[1..] == s;
    }
  }

  /** A reader stops at a NUL and never sees what follows it. */
  lemma {:induction false} UpToNulStopsAtNul(a: string, b: string)
    ensures UpToNul(a + ['\0'] + b) == UpToNul(a)
  {
    if |a| > 0 && a[0] != '\0' {
      assert (a + ['\0'] + b)[1..] == a[1..] + ['\0'] + b;
      UpToNulStopsAtNul(a[1..], b);
    }
  }

  /** A reader that finds no NUL in `a` goes on into `b`. */
  lemma {:induction false} UpToNulReadsOn(a: string, b: string)
    requires '\0' !in a
    ensures UpToNul(a + b) == a + UpToNul(b)
  {
    if |a| > 0 {
      assert a[0] != '\0' && '\0' !in a[1..];
      assert (a + b)[1..] == a[1..] + b;
      UpToNulReadsOn(a[1..], b);
      assert [a[0]] + (a[1..] + UpToNul(b)) == a + UpToNul(b);
    } else {
      assert a + b == b;
    }
  }

  /** Reading the allocation and what lies past it as a C string: a
      terminated buffer is read no further than its body, and a body without
      a NUL is read whole. */
  lemma ReadingPastAllocation(r: Response, beyond: string)
    requires Allocated(r)
    ensures var s := UpToNul(r.memory + beyond);
            && (Terminated(r) ==> s == UpToNul(Body(r)))
            && (Terminated(r) && '\0' !in Body(r) ==> s == Body(r))
            && (!Terminated(r) && '\0' !in Body(r) ==> s == r.memory + UpToNul(beyond))
  {
    if Terminated(r) {
      assert r.memory == Body(r) + ['\0'];
      UpToNulStopsAtNul(Body(r), beyond);
      if '\0' !in Body(r) {
        NulFreeReadsWhole(Body(r));
      }
    } else if '\0' !in Body(r) {
      assert r.memory == Body(r) + [r.memory[r.size]];
      UpToNulReadsOn(r.memory, beyond);
    }
  }

  /** The text a reader of the buffer as a C string (`json_loads`, the
      matcher) sees: the allocation and then whatever memory lies past it
      (given as `beyond`, which nothing in the program determines), up to the
      first NUL. */
  function CString(r: Response, beyond: string): (s: string)
    requires Allocated(r)
    ensures Terminated(r) ==> s == UpToNul(Body(r))
    ensures Terminated(r) && '\0' !in Body(r) ==> s == Body(r)
    ensures !Terminated(r) && '\0' !in Body(r) ==> s == r.memory + UpToNul(beyond)
  {
    ReadingPastAllocation(r, beyond);
    UpToNul(r.memory + beyond)
  }

  /** How a transfer ended: the buffer, how many chunks were handed over, and
      whether libcurl aborted because a callback reported a short count. */
  datatype Received = Received(response: Response, delivered: nat, aborted: bool)

  /** libcurl's side of the write protocol: hand chunks `i..` to `mem_cb` in
      order, and abort as soon as it reports fewer characters than it was given. */
  function ReceiveFrom(r: Response, chunks: seq<string>, reallocOk: nat -> bool, i: nat): (out: Received)
    requires Allocated(r) && i <= |chunks|
    ensures Allocated(out.response)
    ensures i <= out.delivered <= |chunks|
    ensures !out.aborted <==> out.delivered == |chunks|
    ensures out.aborted ==> !reallocOk(out.delivered) && |chunks[out.delivered]| > 0
    ensures Terminated(r) ==> Terminated(out.response)
    decreases |chunks| - i
  {
    if i == |chunks| then Received(r, i, false)
    else
      var w := MemCb(r, chunks[i], reallocOk(i));
      if w.returned != |chunks[i]| then Received(r, i, true)
      else
        ReceiveFrom(w.response, chunks, reallocOk, i + 1)
  }

  /** The body after the transfer is the old body followed by exactly the
      chunks handed over, in order. */
  lemma {:induction false} ReceivedBody(r: Response, chunks: seq<string>, reallocOk: nat -> bool, i: nat)
    requires Allocated(r) && i <= |chunks|
    ensures var out := ReceiveFrom(r, chunks, reallocOk, i);
            Body(out.response) == Body(r) + Concat(chunks[i..out.delivered])
    decreases |chunks| - i
  {
    if i < |chunks| {
      var w := MemCb(r, chunks[i], reallocOk(i));
      if w.returned == |chunks[i]| {
        var rest := ReceiveFrom(w.response, chunks, reallocOk, i + 1);
        assert ReceiveFrom(r, chunks, reallocOk, i) == rest;
        ReceivedBody(w.response, chunks, reallocOk, i + 1);
        assert Body(w.response) == Body(r) + chunks[i];
        ConcatCons(chunks[i], chunks[i + 1..rest.delivered]);
        assert chunks[i..rest.delivered] == [chunks[i]] + chunks[i + 1..rest.delivered];
      }
    }
  }

  /** A whole transfer, starting from the buffer `omg_request` allocates. */
  function Receive(r: Response, chunks: seq<string>, reallocOk: nat -> bool): (out: Received)
    requires Allocated(r)
    ensures Allocated(out.response) && out.delivered <= |chunks|
    ensures Body(out.response) == Body(r) + Concat(chunks[..out.delivered])
    ensures !out.aborted <==> out.delivered == |chunks|
  {
    var out := ReceiveFrom(r, chunks, reallocOk, 0);
    ReceivedBody(r, chunks, reallocOk, 0);
    assert chunks[0..out.delivered] == chunks[..out.delivered];
    out
  }

  /** The buffer as `omg_request` and `omg_query_trending` create it:
      `malloc(1)` with size 0. The one allocated character is whatever the
      allocator left there, given here as `unspecified`. */
  function AllocateResponse(unspecified: char): (r: Response)
    ensures Allocated(r) && r.size == 0 && Body(r) == []
    ensures Terminated(r) <==> unspecified == '\0'
  {
    Response([unspecified], 0)
  }

  /** When no chunk arrives (an empty body), the buffer handed to the JSON
      decoder or the matcher is NUL-terminated only if the allocator happened
      to leave a NUL in its one character. */
  lemma EmptyTransferLeavesBufferUnterminated(unspecified: char, reallocOk: nat -> bool)
    ensures var out := Receive(AllocateResponse(unspecified), [], reallocOk);
            && !out.aborted && out.response == AllocateResponse(unspecified)
            && (Terminated(out.response) <==> unspecified == '\0')
  {
  }

  /** The evidently intended initial buffer: empty and already terminated. */
  function EmptyResponse(): (r: Response)
    ensures Terminated(r) && Body(r) == []
  {
    Response(['\0'], 0)
  }

  /** From the corrected initial buffer, every transfer, whether complete or
      aborted, leaves a terminated buffer holding exactly the delivered chunks. */
  lemma ReceivedBodyIsTerminated(chunks: seq<string>, reallocOk: nat -> bool)
    ensures var out := Receive(EmptyResponse(), chunks, reallocOk);
            && Terminated(out.response)
            && Body(out.response) == Concat(chunks[..out.delivered])
  {
    var out := ReceiveFrom(EmptyResponse(), chunks, reallocOk, 0);
    assert Terminated(out.response);
  }
}

=== FILE: trending.dfy ===
/**
  `omg_parse_trending`: repeatedly match the trending pattern against the
  rest of the page, turn each match into a partial repository, and move the
  cursor to the end of the match, stopping at the first miss or after
  `TRENDING_LIST_LENGTH` entries. The PCRE pattern is replaced by a matcher
  that returns the three groups and the end of the third.
 */
module Trending {
  import opened OmgTypes

  /** The most entries one page yields. */
  const TRENDING_LIST_LENGTH: nat := 25

  /** One match of the pattern against the text from the cursor: the
      language, `owner/name`, the star digits, and where group 3 ends. */
  datatype Match = Match(lang: string, fullName: string, stars: string, end: nat)

  predicate IsDigit(c: char) {
    '0' <= c <= '9'
  }

  /** What the pattern guarantees of a match against `text`: it ends inside
      the text after at least one character, and group 3 (`\d+`) is a
      non-empty run of digits. */
  predicate ValidMatch(m: Match, text: string) {
    && 0 < m.end <= |text|
    && |m.stars| > 0
    && forall i :: 0 <= i < |m.stars| ==> IsDigit(m.stars[i])
  }

  /** A matcher behaves like the pattern on every text. */
  ghost predicate WellBehaved(matcher: string -> Option<Match>) {
    forall text :: matcher(text).Some? ==> ValidMatch(matcher(text).value, text)
  }

  function DigitValue(c: char): nat
    requires IsDigit(c)
  {
    c as int - '0' as int
  }

  /** Ten to the power `k`. */
  function Pow10(k: nat): (p: nat)
    ensures p >= 1
  {
    if k == 0 then 1 else 10 * Pow10(k - 1)
  }

  /** `atoi` on a run of digits: a run of `k` digits reads as a number below
      ten to the `k`, and a run of zeros reads as zero. */
  function ParseDecimal(digits: string): (n: nat)
    requires forall i :: 0 <= i < |digits| ==> IsDigit(digits[i])
    ensures n < Pow10(|digits|)
    ensures (forall i :: 0 <= i < |digits| ==> digits[i] == '0') ==> n == 0
  {
    if |digits| == 0 then 0
    else ParseDecimal(digits[..|digits| - 1]) * 10 + DigitValue(digits[|digits| - 1])
  }

  /** The decimal digits of `n`, as the trending page prints a star count. */
  function Decimal(n: nat): (s: string)
    ensures |s| > 0 && forall i :: 0 <= i < |s| ==> IsDigit(s[i])
  {
    var last := ('0' as int + n % 10) as char;
    if n < 10 then [last] else Decimal(n / 10) + [last]
  }

  /** A star count printed on the page is read back by `atoi` unchanged. */
  lemma {:induction false} DecimalRoundTrip(n: nat)
    ensures ParseDecimal(Decimal(n)) == n
  {
    if n >= 10 {
      var s := Decimal(n);
      assert s[..|s| - 1] == Decimal(n / 10);
      DecimalRoundTrip(n / 10);
    }
  }

  /** The entry a match becomes: `omg_new_repo` with the language, the full
      name and the star count filled in. */
  function Entry(m: Match): (r: Repo)
    requires forall i :: 0 <= i < |m.stars| ==> IsDigit(m.stars[i])
    ensures r.lang == Some(m.lang) && r.fullName == Some(m.fullName)
    ensures r.stargazersCount == ParseDecimal(m.stars)
    ensures r.(lang := None, fullName := None, stargazersCount := 0) == NewRepo()
  {
    NewRepo().(lang := Some(m.lang), fullName := Some(m.fullName), stargazersCount := ParseDecimal(m.stars))
  }

  /** Apart from the three captured fields an entry keeps the defaults of
      `omg_new_repo`: no strings, zero counts, not private. */
  lemma EntryLeavesOtherFieldsUnset(m: Match)
    requires forall i :: 0 <= i < |m.stars| ==> IsDigit(m.stars[i])
    ensures var r := Entry(m);
            && r.id == 0 && !r.isPrivate && r.size == 0
            && r.watchersCount == 0 && r.forksCount == 0
            && r.description.None? && r.createdAt.None? && r.license.None?
            && r.pushedAt.None? && r.homepage.None?
  {
  }

  /** The text the `k`-th match attempt runs on, if the loop gets that far
      without a miss: a suffix of the page at least `k` characters shorter. */
  function Cursor(html: string, matcher: string -> Option<Match>, k: nat): (c: Option<string>)
    requires WellBehaved(matcher)
    ensures c.Some? ==> |c.value| + k <= |html|
  {
    if k == 0 then Some(html)
    else
      var previous := Cursor(html, matcher, k - 1);
      if previous.None? then None
      else match matcher(previous.value)
        case None => None
        case Some(m) => Some(previous.value[m.end..])
  }

  /** Every cursor is what is left of the page after some prefix. */
  lemma {:induction false} CursorIsSuffix(html: string, matcher: string -> Option<Match>, k: nat)
    requires WellBehaved(matcher) && Cursor(html, matcher, k).Some?
    ensures var c := Cursor(html, matcher, k).value;
            |c| <= |html| && c == html[|html| - |c|..]
  {
    if k > 0 {
      var previous := Cursor(html, matcher, k - 1).value;
      CursorIsSuffix(html, matcher, k - 1);
      var m := matcher(previous).value;
      assert previous[m.end..] == html[|html| - |previous| + m.end..];
    }
  }

  /** Every match moves the cursor strictly forward, so the loop never
      matches the same text twice. */
  lemma CursorAdvances(html: string, matcher: string -> Option<Match>, k: nat)
    requires WellBehaved(matcher) && Cursor(html, matcher, k + 1).Some?
    ensures Cursor(html, matcher, k).Some?
    ensures |Cursor(html, matcher, k + 1).value| < |Cursor(html, matcher, k).value|
  {
  }

  /** The pattern matches at the `k`-th cursor. */
  predicate MatchesAt(html: string, matcher: string -> Option<Match>, k: nat)
    requires WellBehaved(matcher)
  {
    Cursor(html, matcher, k).Some? && matcher(Cursor(html, matcher, k).value).Some?
  }

  /** The entry made from the match at the `k`-th cursor. */
  function EntryAt(html: string, matcher: string -> Option<Match>, k: nat): Repo
    requires WellBehaved(matcher) && MatchesAt(html, matcher, k)
  {
    Entry(matcher(Cursor(html, matcher, k).value).value)
  }

  /** How many iterations the loop runs from iteration `k` on: one per
      match at cursors `k`, `k + 1`, ..., up to the first miss or the cap. */
  function MatchRun(html: string, matcher: string -> Option<Match>, k: nat): (n: nat)
    requires WellBehaved(matcher) && k <= TRENDING_LIST_LENGTH
    ensures k + n <= TRENDING_LIST_LENGTH
    ensures forall i :: k <= i < k + n ==> MatchesAt(html, matcher, i)
    ensures Cursor(html, matcher, k).Some? && k + n < TRENDING_LIST_LENGTH ==>
              Cursor(html, matcher, k + n).Some? && !MatchesAt(html, matcher, k + n)
    decreases TRENDING_LIST_LENGTH - k
  {
    if k == TRENDING_LIST_LENGTH || !MatchesAt(html, matcher, k) then 0
    else 1 + MatchRun(html, matcher, k + 1)
  }

  /** `omg_parse_trending`: the loop runs until the first miss or 25
      iterations, and iteration `i` stores the entry made from the match at
      the `i`-th cursor. It never fails. */
  function ParseTrending(html: string, matcher: string -> Option<Match>): (r: seq<Repo>)
    requires WellBehaved(matcher)
    ensures |r| <= TRENDING_LIST_LENGTH
    ensures forall i :: 0 <= i < |r| ==> MatchesAt(html, matcher, i) && r[i] == EntryAt(html, matcher, i)
    ensures |r| < TRENDING_LIST_LENGTH ==> Cursor(html, matcher, |r|).Some? && !MatchesAt(html, matcher, |r|)
  {
    var n := MatchRun(html, matcher, 0);
    seq(n, i requires 0 <= i < n => EntryAt(html, matcher, i))
  }

  /** A page on which the pattern matches at least 25 times in a row (30
      trending blocks, say) yields exactly the first 25. */
  lemma ManyMatchesAreCapped(html: string, matcher: string -> Option<Match>)
    requires WellBehaved(matcher)
    requires forall k :: 0 <= k < TRENDING_LIST_LENGTH ==> MatchesAt(html, matcher, k)
    ensures |ParseTrending(html, matcher)| == TRENDING_LIST_LENGTH
  {
  }

  /** Three well-formed blocks followed by text the pattern does not match
      give exactly three entries, and no error. */
  lemma ThreeBlocksThenNoMatch(html: string, matcher: string -> Option<Match>)
    requires WellBehaved(matcher)
    requires MatchesAt(html, matcher, 0) && MatchesAt(html, matcher, 1) && MatchesAt(html, matcher, 2)
    requires !MatchesAt(html, matcher, 3)
    ensures |ParseTrending(html, matcher)| == 3
  {
  }

  /** An entry's star count is the number the page printed, when it printed
      the count as plain digits: group 3 of the pattern captures a digit run,
      so for a count with thousands separators it holds only the last group. */
  lemma EntryKeepsStarCount(lang: string, fullName: string, stars: nat, end: nat)
    ensures Entry(Match(lang, fullName, Decimal(stars), end)).stargazersCount == stars
  {
    DecimalRoundTrip(stars);
  }
}

=== FILE: upsert_store.dfy ===
/**
  The three tables the sync writes (`omg_repo`, `omg_my_repo`, `omg_my_star`)
  and the statements that write them: `save_repos`, `save_my_repos`,
  `save_my_stars` and the local part of `omg_unstar`. SQLite is replaced by
  an oracle that says, per prepared statement, whether preparing it succeeds
  and which row steps succeed.
 */
module UpsertStore {
  import opened OmgTypes

  /** `omg_repo` keyed by id, the `omg_my_repo` markers, and `omg_my_star`
      keyed by repo id holding `starred_at`. */
  datatype Store = Store(repos: map<int, Repo>, myRepos: set<int>, stars: map<int, Str>)

  /** How SQLite treats one prepared statement: whether `sqlite3_prepare_v2`
      succeeds, whether the step for the row at each batch index reaches
      `SQLITE_DONE`, and the message `sqlite3_errmsg` would give. */
  datatype Statement = Statement(prepareOk: bool, stepOk: nat -> bool, errmsg: string)

  /** The two statements a batch save prepares: the repository upsert, then
      the marker (my-repo or star) write. */
  datatype BatchFaults = BatchFaults(repoUpsert: Statement, marker: Statement)

  /** The tables after a call, and the `omg_error` it returned. */
  datatype Saved = Saved(store: Store, outcome: Outcome)

  /** Some row whose step succeeded has key `k`. */
  ghost predicate Written<V>(rows: seq<(int, V)>, stepOk: nat -> bool, k: int) {
    exists j :: 0 <= j < |rows| && stepOk(j) && rows[j].0 == k
  }

  /** Row `j` succeeded and no later successful row has the same key. */
  ghost predicate LastWrite<V>(rows: seq<(int, V)>, stepOk: nat -> bool, j: int) {
    && 0 <= j < |rows| && stepOk(j)
    && forall i :: j < i < |rows| && stepOk(i) ==> rows[i].0 != rows[j].0
  }

  /** An `INSERT ... ON CONFLICT DO UPDATE` statement stepped once per row in
      batch order; a row whose step fails is logged and skipped. */
  function Upsert<V>(m: map<int, V>, rows: seq<(int, V)>, stepOk: nat -> bool): (r: map<int, V>)
    ensures m.Keys <= r.Keys
    ensures forall k :: k in r && k !in m ==> exists j :: 0 <= j < |rows| && stepOk(j) && rows[j].0 == k
    decreases |rows|
  {
    if |rows| == 0 then m
    else
      var n := |rows| - 1;
      var prev := Upsert(m, rows[..n], stepOk);
      if stepOk(n) then prev[rows[n].0 := rows[n].1] else prev
  }

  /** After an upsert the keys are the old keys and those of successful rows. */
  lemma {:induction false} UpsertKeys<V>(m: map<int, V>, rows: seq<(int, V)>, stepOk: nat -> bool)
    ensures forall k :: k in Upsert(m, rows, stepOk) <==> k in m || Written(rows, stepOk, k)
    decreases |rows|
  {
    if |rows| > 0 {
      var n := |rows| - 1;
      var prefix := rows[..n];
      var prev := Upsert(m, prefix, stepOk);
      UpsertKeys(m, prefix, stepOk);
      var r := Upsert(m, rows, stepOk);
      assert r == if stepOk(n) then prev[rows[n].0 := rows[n].1] else prev;
      forall k ensures k in r <==> k in m || Written(rows, stepOk, k) {
        if Written(prefix, stepOk, k) {
          var j :| 0 <= j < |prefix| && stepOk(j) && prefix[j].0 == k;
          assert rows[j] == prefix[j];
        }
        if Written(rows, stepOk, k) {
          var j :| 0 <= j < |rows| && stepOk(j) && rows[j].0 == k;
          if j < n {
            assert prefix[j] == rows[j];
          }
        }
      }
    }
  }

  /** After an upsert each key holds the value of its last successful row. */
  lemma {:induction false} UpsertLastWrites<V>(m: map<int, V>, rows: seq<(int, V)>, stepOk: nat -> bool)
    ensures var r := Upsert(m, rows, stepOk);
            forall j :: LastWrite(rows, stepOk, j) ==> rows[j].0 in r && r[rows[j].0] == rows[j].1
    decreases |rows|
  {
    if |rows| > 0 {
      var n := |rows| - 1;
      var prefix := rows[..n];
      var prev := Upsert(m, prefix, stepOk);
      UpsertLastWrites(m, prefix, stepOk);
      var r := Upsert(m, rows, stepOk);
      assert r == if stepOk(n) then prev[rows[n].0 := rows[n].1] else prev;
      forall j | LastWrite(rows, stepOk, j) ensures rows[j].0 in r && r[rows[j].0] == rows[j].1 {
        if j < n {
          assert prefix[j] == rows[j];
          assert LastWrite(prefix, stepOk, j);
        }
      }
    }
  }

  /** An upsert leaves every key no successful row wrote at its old value. */
  lemma {:induction false} UpsertUntouched<V>(m: map<int, V>, rows: seq<(int, V)>, stepOk: nat -> bool)
    ensures var r := Upsert(m, rows, stepOk);
            forall k :: k in m && !Written(rows, stepOk, k) ==> r[k] == m[k]
    decreases |rows|
  {
    if |rows| > 0 {
      var n := |rows| - 1;
      var prefix := rows[..n];
      var prev := Upsert(m, prefix, stepOk);
      UpsertUntouched(m, prefix, stepOk);
      var r := Upsert(m, rows, stepOk);
      assert r == if stepOk(n) then prev[rows[n].0 := rows[n].1] else prev;
      forall k | k in m && !Written(rows, stepOk, k) ensures r[k] == m[k] {
        forall j | 0 <= j < |prefix| ensures prefix[j] == rows[j] { }
        assert !Written(prefix, stepOk, k);
      }
    }
  }

  /** After an upsert, each key holds the value of the last successful row with
      that key; keys no successful row wrote keep their old value, and no key
      appears that neither the table nor a successful row had. */
  lemma {:induction false} UpsertLastWriteWins<V>(m: map<int, V>, rows: seq<(int, V)>, stepOk: nat -> bool)
    ensures var r := Upsert(m, rows, stepOk);
            && (forall k :: k in r <==> k in m || Written(rows, stepOk, k))
            && (forall j :: LastWrite(rows, stepOk, j) ==> rows[j].0 in r && r[rows[j].0] == rows[j].1)
            && (forall k :: k in m && !Written(rows, stepOk, k) ==> r[k] == m[k])
  {
    UpsertKeys(m, rows, stepOk);
    UpsertLastWrites(m, rows, stepOk);
    UpsertUntouched(m, rows, stepOk);
  }

  /** Every key written by a successful row has a last such row. */
  lemma {:induction false} LastWriteOf<V>(rows: seq<(int, V)>, stepOk: nat -> bool, k: int) returns (j: int)
    requires Written(rows, stepOk, k)
    ensures LastWrite(rows, stepOk, j) && rows[j].0 == k
    decreases |rows|
  {
    var n := |rows| - 1;
    if stepOk(n) && rows[n].0 == k {
      j := n;
    } else {
      var prefix := rows[..n];
      var w :| 0 <= w < |rows| && stepOk(w) && rows[w].0 == k;
      assert w < n && prefix[w] == rows[w];
      j := LastWriteOf(prefix, stepOk, k);
      assert rows[j] == prefix[j];
      forall i | j < i < |rows| && stepOk(i) ensures rows[i].0 != rows[j].0 {
        if i < n {
          assert rows[i] == prefix[i];
        }
      }
    }
  }

  /** Replaying the same batch with the same row outcomes changes nothing. */
  lemma UpsertIdempotent<V>(m: map<int, V>, rows: seq<(int, V)>, stepOk: nat -> bool)
    ensures Upsert(Upsert(m, rows, stepOk), rows, stepOk) == Upsert(m, rows, stepOk)
  {
    var once := Upsert(m, rows, stepOk);
    var twice := Upsert(once, rows, stepOk);
    UpsertLastWriteWins(m, rows, stepOk);
    UpsertLastWriteWins(once, rows, stepOk);
    forall k | k in once ensures twice[k] == once[k] {
      if Written(rows, stepOk, k) {
        var j := LastWriteOf(rows, stepOk, k);
      }
    }
    assert forall k :: k in twice <==> k in once;
    assert twice.Keys == once.Keys;
  }

  /** The `omg_repo` rows of a batch, keyed by repository id. */
  function RepoRows(batch: seq<Repo>): (rows: seq<(int, Repo)>)
    ensures |rows| == |batch|
    ensures forall i :: 0 <= i < |batch| ==> rows[i] == (batch[i].id, batch[i])
  {
    seq(|batch|, i requires 0 <= i < |batch| => (batch[i].id, batch[i]))
  }

  /** The `omg_my_star` rows of a batch, keyed by the starred repository's id. */
  function StarRows(batch: seq<Star>): (rows: seq<(int, Str)>)
    ensures |rows| == |batch|
    ensures forall i :: 0 <= i < |batch| ==> rows[i] == (batch[i].repo.id, batch[i].starredAt)
  {
    seq(|batch|, i requires 0 <= i < |batch| => (batch[i].repo.id, batch[i].starredAt))
  }

  /** The repositories a star batch carries, in batch order. */
  function StarredRepos(batch: seq<Star>): (repos: seq<Repo>)
    ensures |repos| == |batch|
    ensures forall i :: 0 <= i < |batch| ==> repos[i] == batch[i].repo
  {
    seq(|batch|, i requires 0 <= i < |batch| => batch[i].repo)
  }

  /** The ids whose row step succeeded. */
  function SucceededIds(batch: seq<Repo>, stepOk: nat -> bool): set<int> {
    set j | 0 <= j < |batch| && stepOk(j) :: batch[j].id
  }

  /** The failure a statement that did not prepare reports. */
  function PrepareFailed(st: Statement): Outcome {
    Fail(Error(CodeDb, st.errmsg))
  }

  /** `save_repos`: if the upsert prepares, every row is upserted on `id`,
      overwriting all twelve other columns, failed rows are skipped, and the
      call returns OK; if it does not prepare, nothing is written and the call
      fails with `OMG_CODE_DB`. Only `omg_repo` changes. */
  function SaveRepos(s: Store, batch: seq<Repo>, st: Statement): (r: Saved)
    ensures r.outcome.Pass? <==> st.prepareOk
    ensures !st.prepareOk ==> r == Saved(s, PrepareFailed(st))
    ensures r.store.myRepos == s.myRepos && r.store.stars == s.stars
    ensures st.prepareOk ==>
              forall id :: id in r.store.repos <==> id in s.repos || id in SucceededIds(batch, st.stepOk)
    ensures st.prepareOk ==>
              forall j :: LastWrite(RepoRows(batch), st.stepOk, j) ==>
                batch[j].id in r.store.repos && r.store.repos[batch[j].id] == batch[j]
    ensures forall id :: id in s.repos && id !in SucceededIds(batch, st.stepOk) ==> r.store.repos[id] == s.repos[id]
  {
    if !st.prepareOk then Saved(s, PrepareFailed(st))
    else
      var rows := RepoRows(batch);
      UpsertLastWriteWins(s.repos, rows, st.stepOk);
      assert forall id :: Written(rows, st.stepOk, id) <==> id in SucceededIds(batch, st.stepOk) by {
        forall id ensures Written(rows, st.stepOk, id) <==> id in SucceededIds(batch, st.stepOk) {
          if id in SucceededIds(batch, st.stepOk) {
            var j :| 0 <= j < |batch| && st.stepOk(j) && batch[j].id == id;
            assert rows[j].0 == id;
          }
        }
      }
      Saved(s.(repos := Upsert(s.repos, rows, st.stepOk)), Pass)
  }

  /** `insert or ignore into omg_my_repo`: ids whose step succeeded are added;
      markers already present are left as they are. */
  function InsertOrIgnore(markers: set<int>, batch: seq<Repo>, stepOk: nat -> bool): (r: set<int>)
    ensures markers <= r
    ensures forall j :: 0 <= j < |batch| && stepOk(j) ==> batch[j].id in r
    ensures forall id :: id in r && id !in markers ==> exists j :: 0 <= j < |batch| && stepOk(j) && batch[j].id == id
  {
    markers + SucceededIds(batch, stepOk)
  }

  /** `save_my_repos`: save the repositories first; if that fails, return its
      error. Then mark every id whose marker step succeeds as one of the
      user's own. A marker statement that does not prepare fails with
      `OMG_CODE_DB` after the repositories are already saved. */
  function SaveMyRepos(s: Store, batch: seq<Repo>, f: BatchFaults): (r: Saved)
    ensures r.outcome.Pass? <==> f.repoUpsert.prepareOk && f.marker.prepareOk
    ensures !f.repoUpsert.prepareOk ==> r == Saved(s, PrepareFailed(f.repoUpsert))
    ensures f.repoUpsert.prepareOk && !f.marker.prepareOk ==>
              r == Saved(SaveRepos(s, batch, f.repoUpsert).store, PrepareFailed(f.marker))
    ensures r.store.repos == SaveRepos(s, batch, f.repoUpsert).store.repos
    ensures r.store.stars == s.stars
    ensures r.outcome.Pass? ==> r.store.myRepos == s.myRepos + SucceededIds(batch, f.marker.stepOk)
    ensures r.outcome.Fail? ==> r.store.myRepos == s.myRepos
  {
    var saved := SaveRepos(s, batch, f.repoUpsert);
    if saved.outcome.Fail? then saved
    else if !f.marker.prepareOk then Saved(saved.store, PrepareFailed(f.marker))
    else Saved(saved.store.(myRepos := InsertOrIgnore(saved.store.myRepos, batch, f.marker.stepOk)), Pass)
  }

  /** Saving the same batch twice, with the same statement behaviour, leaves
      the same tables as saving it once. */
  lemma SaveMyReposIdempotent(s: Store, batch: seq<Repo>, f: BatchFaults)
    ensures var once := SaveMyRepos(s, batch, f);
            SaveMyRepos(once.store, batch, f) == once
  {
    var once := SaveMyRepos(s, batch, f);
    if f.repoUpsert.prepareOk {
      UpsertIdempotent(s.repos, RepoRows(batch), f.repoUpsert.stepOk);
    }
  }

  /** `save_my_stars`: save the starred repositories first; if that fails,
      return its error. Then upsert one `omg_my_star` row per repo id, where a
      conflict only refreshes `starred_at`. */
  function SaveMyStars(s: Store, batch: seq<Star>, f: BatchFaults): (r: Saved)
    ensures r.outcome.Pass? <==> f.repoUpsert.prepareOk && f.marker.prepareOk
    ensures !f.repoUpsert.prepareOk ==> r == Saved(s, PrepareFailed(f.repoUpsert))
    ensures f.repoUpsert.prepareOk && !f.marker.prepareOk ==>
              r == Saved(SaveRepos(s, StarredRepos(batch), f.repoUpsert).store, PrepareFailed(f.marker))
    ensures r.store.repos == SaveRepos(s, StarredRepos(batch), f.repoUpsert).store.repos
    ensures r.store.myRepos == s.myRepos
    ensures r.outcome.Fail? ==> r.store.stars == s.stars
    ensures r.outcome.Pass? ==>
              forall id :: id in r.store.stars <==>
                id in s.stars || exists j :: 0 <= j < |batch| && f.marker.stepOk(j) && batch[j].repo.id == id
    ensures r.outcome.Pass? ==>
              forall j :: LastWrite(StarRows(batch), f.marker.stepOk, j) ==>
                batch[j].repo.id in r.store.stars && r.store.stars[batch[j].repo.id] == batch[j].starredAt
    ensures forall id :: id in s.stars && !Written(StarRows(batch), f.marker.stepOk, id) ==>
              r.store.stars[id] == s.stars[id]
  {
    var saved := SaveRepos(s, StarredRepos(batch), f.repoUpsert);
    if saved.outcome.Fail? then saved
    else if !f.marker.prepareOk then Saved(saved.store, PrepareFailed(f.marker))
    else
      var rows := StarRows(batch);
      UpsertLastWriteWins(saved.store.stars, rows, f.marker.stepOk);
      assert forall id :: Written(rows, f.marker.stepOk, id) <==>
               exists j :: 0 <= j < |batch| && f.marker.stepOk(j) && batch[j].repo.id == id by {
        forall id ensures Written(rows, f.marker.stepOk, id) <==>
               exists j :: 0 <= j < |batch| && f.marker.stepOk(j) && batch[j].repo.id == id {
          if exists j :: 0 <= j < |batch| && f.marker.stepOk(j) && batch[j].repo.id == id {
            var j :| 0 <= j < |batch| && f.marker.stepOk(j) && batch[j].repo.id == id;
            assert rows[j].0 == id;
          }
        }
      }
      Saved(saved.store.(stars := Upsert(saved.store.stars, rows, f.marker.stepOk)), Pass)
  }

  /** A statement whose every step succeeds. */
  function AllRowsOk(errmsg: string): Statement {
    Statement(true, _ => true, errmsg)
  }

  /** Starring a repository again later keeps exactly one star row for it,
      holding the newer timestamp. */
  lemma RestarKeepsLatestTimestamp(s: Store, repo: Repo, first: Str, second: Str, errmsg: string)
    ensures var f := BatchFaults(AllRowsOk(errmsg), AllRowsOk(errmsg));
            var once := SaveMyStars(s, [Star(first, repo)], f).store;
            var twice := SaveMyStars(once, [Star(second, repo)], f).store;
            repo.id in twice.stars && twice.stars[repo.id] == second
  {
    var f := BatchFaults(AllRowsOk(errmsg), AllRowsOk(errmsg));
    var once := SaveMyStars(s, [Star(first, repo)], f).store;
    assert LastWrite(StarRows([Star(second, repo)]), f.marker.stepOk, 0);
  }

  /** How SQLite treats the two statements of `omg_unstar`: the id lookup and
      the star delete. */
  datatype UnstarFaults = UnstarFaults(selectPrepareOk: bool, deletePrepareOk: bool, deleteStepOk: bool, errmsg: string)

  /** The local part of `omg_unstar`: look the id up in `omg_repo` (no row is an
      `OMG_CODE_DB` failure), then delete that id's `omg_my_star` row; the
      repository row stays. On success the call returns whatever the
      `DELETE /user/starred/<full_name>` request returns, given as `remote`. */
  function Unstar(s: Store, repoId: int, f: UnstarFaults, remote: Outcome): (r: Saved)
    ensures repoId !in s.repos ==> r == Saved(s, Fail(Error(CodeDb, f.errmsg)))
    ensures r.store.repos == s.repos && r.store.myRepos == s.myRepos
    ensures repoId in s.repos && f.selectPrepareOk && f.deletePrepareOk && f.deleteStepOk ==>
              && r.outcome == remote
              && repoId !in r.store.stars
              && (forall id :: id != repoId ==> (id in r.store.stars <==> id in s.stars))
              && (forall id :: id != repoId && id in s.stars ==>
                    id in r.store.stars && r.store.stars[id] == s.stars[id])
    ensures !(repoId in s.repos && f.selectPrepareOk && f.deletePrepareOk && f.deleteStepOk) ==>
              r.store == s && r.outcome.Fail? && r.outcome.error.code == CodeDb
  {
    if !f.selectPrepareOk || repoId !in s.repos || !f.deletePrepareOk || !f.deleteStepOk then
      Saved(s, Fail(Error(CodeDb, f.errmsg)))
    else
      Saved(s.(stars := s.stars - {repoId}), remote)
  }
}
